=== FILE: README.md ===
# Ultimate Code Hunt: a Dafny model

Ultimate Code Hunt (終極密碼對決) is a multiplayer number-guessing game.
Each round a secret number is drawn from the round's range:

- round 1 uses 1..30;
- round 2 uses 1..20;
- every later round uses 1..15.

On their turn, a player calls one to three consecutive numbers of the current
range that nobody has called yet.

- A miss narrows the range around the secret, and the turn moves on.
- A call that contains the secret eliminates the caller.
- Each player may pass once per round and reverse the turn order once per
  round.
- The last player standing wins.

Rooms gather players before a game. A computer player can take a seat.

This project models the game's core and proves properties of the model:

- the current FastAPI server, `backend/main.py`;
- the older single-file server, `main.py`;
- the client-side rules in the React front end:
  - the number selection and action guards of the game screen;
  - the number grid;
  - the set-up form;
  - the shared WebSocket service;
  - the avatar size choice.

Modules:

- `Types`: options, results, ranges, players and the server's error cases.
- `Seqs`: sorting, runs of consecutive numbers and filtering.
- `Engine`: the server's game.
  - round schedule, secret draw and turn rotation;
  - elimination, call validation and range narrowing;
  - the call, pass, reverse, status and start endpoints.
- `Rotation`: the turn-rotation loop, proved to reach the first alive player.
- `GameInvariants`: what a game keeps true from start to end.
- `Ai`: the computer player's decision and the AI endpoint.
- `Rooms`: rooms and the room endpoints.
- `Legacy`: the older server. Its round, rotation and elimination code is the
  same text as the current server's, so `Engine` models it. Only the current
  server resets a room when a game ends; the older one has no rooms.
- `Server`: the current server's game endpoints on the `games` table and the
  room registry. It covers the 404 for an unknown game id, and the room reset
  that a game-ending call runs.
- `Board`, `Grid`, `GameSetup`, `Socket`, `Avatar`: the client pieces.

Randomness, clocks and generated ids are inputs:

- The secret is `Draw(range, seed)`, and every number of the range is some
  seed's draw.
- The computer player's 60% pass draw is a `coin`.
- Its count draw is a `pick`.
- Room and player ids and game ids are parameters.

Asynchronous browser events are also inputs: socket close events, timers and
fetch results.

## Model

| member | source | states |
|---|---|---|
| Engine.RoundRange | backend/main.py:355-360 | round 1 plays 1..30, round 2 plays 1..20, every later round 1..15 |
| Engine.Draw | backend/main.py:362 | the secret lies in the round's range |
| Engine.DrawCoversRange | backend/main.py:362 | every number of the range is drawn by some seed, so the seed input loses no outcome |
| Engine.StartRound | backend/main.py:354-368 | the new range and a secret inside it; no number called; alive players regain pass and reverse, the dead are untouched; nothing else changes |
| Engine.NextPlayer | backend/main.py:375-388 | only the turn index changes; with at most one player alive it does not move |
| Rotation.NextPlayerMovesToFirstAlive | backend/main.py:375-388 | with two or more alive, the turn moves to another player, the first alive one met walking in the game's direction within one lap |
| Rotation.StepReaches | backend/main.py:382-384 | walking one seat at a time in either direction reaches every seat within one lap, and the start seat only after a full lap |
| Engine.EliminateCurrent | backend/main.py:390-408 | the caller is dead, the others keep their state, the game id and AI table are kept, and the game-over flag is set exactly when one player is left |
| GameInvariants.MarkDeadCount | backend/main.py:391-394 | eliminating an alive player lowers the alive count by exactly one |
| GameInvariants.EliminationStartsNextRound | backend/main.py:402-406 | with three or more alive, the round advances, the direction resets to +1, the turn goes to an alive player and a fresh round begins |
| GameInvariants.EliminationEndsGame | backend/main.py:396-400 | with two alive, the game is over and the winner is the other alive player |
| Engine.ValidateCall | backend/main.py:762-774 | a call is accepted exactly when it has one to three numbers, consecutive once sorted, inside the range and none called; the length error occurs exactly for a bad length, the run error exactly for a good length that is not a run |
| GameInvariants.AcceptedCallIsRun | backend/main.py:765-768 | the numbers of an accepted call are exactly m, m+1, … for their smallest m |
| Engine.Narrow | backend/main.py:780-787 | the new range lies inside the old one, still holds the secret, and excludes every called number on either side of it |
| GameInvariants.MissNarrowsAroundSecret | backend/main.py:776-787 | after a miss the range lies inside the old one and still holds the same secret, and no called number is in it |
| Engine.CallNumbers | backend/main.py:748-814 | refused exactly for the wrong player or an invalid call; a hit exactly when the secret is called, and a hit eliminates the caller through the elimination step, reporting its game-over flag, the next player or the winner; a miss adds the numbers to the called set, narrows the range, leaves the players as they were and moves the turn with `next_player` |
| Engine.UsePass | backend/main.py:816-838 | accepted exactly for the current player with the pass unused; the new game is `next_player` applied after spending the pass, so nothing else changes |
| Engine.UseReverse | backend/main.py:840-864 | accepted exactly for the current player with the reverse unused; the new game is `next_player` applied after spending the reverse and flipping the direction, so nothing else changes |
| Engine.GetStatus | backend/main.py:866-885 | over exactly when at most one player is alive; a winner exactly then, the first alive player; fails when none is alive |
| Engine.AiTable | backend/main.py:218-229 | the AI table holds exactly the ids of the AI entries |
| Engine.NewGame | backend/main.py:212-241 | players from the request with their ids or their indices; round 1, first seat, direction +1, range 1..30 |
| Engine.StartGame | backend/main.py:728-746 | two to five players, else rejected; the reply is a running game |
| GameInvariants.NewGameIsConsistent | backend/main.py:212-241 | a new game of two or more players is consistent: secret in range and not called, current player alive |
| GameInvariants.CallKeepsConsistent | backend/main.py:748-814 | an accepted call keeps the game consistent, hit or miss |
| GameInvariants.PassKeepsConsistent | backend/main.py:816-838 | an accepted pass keeps the game consistent |
| GameInvariants.ReverseKeepsConsistent | backend/main.py:840-864 | an accepted reverse keeps the game consistent |
| GameInvariants.MissHandsOverTurn | backend/main.py:805-806 | with two or more alive, a miss hands the turn to another alive player, the first met in the direction of travel |
| GameInvariants.PassHandsOverTurn | backend/main.py:830-832 | with two or more alive, a pass hands the turn to another alive player, the first met in the direction of travel |
| GameInvariants.ReverseHandsOverTurn | backend/main.py:853-856 | with two or more alive, a reverse hands the turn to another alive player, the first met walking the other way |
| GameInvariants.HandedOverSameAliveness | backend/main.py:375-388 | where the turn goes depends only on who is alive |
| GameInvariants.StatusOfConsistent | backend/main.py:866-885 | a consistent game always has a status, over exactly when the current player is out |
| GameInvariants.GameOverIsFinal | backend/main.py:748-864 | once one player is left, an accepted call is a miss that leaves the players as they were, and after any accepted move the game stays over with the same winner |
| Ai.Available | backend/main.py:905 | the available numbers are ascending and exactly the range minus the called numbers |
| Ai.Danger | backend/main.py:119-120 | the danger flag holds exactly when the called count over the width exceeds 0.75; a zero width fails |
| Ai.RatioAboveThreeQuarters | backend/main.py:119-123 | the real-valued ratio test equals the integer test on the width and the called count |
| Ai.FindWindow | backend/main.py:133-136 | the first window of the chosen length that forms a run, or none |
| Ai.WindowCall | backend/main.py:131-138 | the call for a drawn count: the slice at the first index where that many consecutive available numbers start, or the smallest available number when no such run exists |
| Ai.DecideAction | backend/main.py:116-138 | a zero-width range is a division by zero; it passes exactly when the pass is left and either the range is crowded with the coin or nothing is available; otherwise, with numbers available, it calls the first run of `count` available numbers, `count` being one plus the pick modulo the smaller of three and the number available, or the smallest available number when there is no such run; nothing only when none is available and no pass is left |
| Ai.OnePickCallsSmallest | backend/main.py:132-138 | a count of one calls the smallest available number |
| Ai.AiCallIsValid | backend/main.py:904-926 | every call the AI decides on passes the server's validation |
| Ai.Decision | backend/main.py:904-918 | every call the AI decides on in a game passes the server's validation |
| Ai.AiTurn | backend/main.py:887-936 | only on an AI's turn with its AI registered; a pass only when the AI decided to pass, a call only of the numbers it decided on, each carried out by the pass or call endpoint under the AI's id; the endpoint succeeds exactly when a registered AI has the turn and decides on a move, and a failed or empty decision fails it |
| Ai.AiTurnSucceeds | backend/main.py:887-936 | in a running consistent game, a registered AI's move is always accepted and keeps the game consistent |
| Rooms.AddPlayer | backend/main.py:172-188 | refused when full, then while playing; otherwise appended, and the room is marked full at capacity |
| Rooms.RemovePlayer | backend/main.py:190-197 | every player with that id leaves; a full room below capacity is waiting again; a leaving host hands over to the first player |
| Rooms.WithoutId | backend/main.py:191 | exactly the listed players whose id differs; the list itself when nobody has the id |
| Rooms.WithoutIdConcat | backend/main.py:191 | the filter works part by part, so the players who stay keep their order |
| Rooms.WithoutIdKeepsCounts | backend/main.py:191 | every player who stays is kept as often as listed |
| Rooms.AddPlayerKeepsRoomOk | backend/main.py:172-188 | joining keeps the room within capacity, with its host present, marked full exactly at capacity |
| Rooms.RemovePlayerKeepsRoomOk | backend/main.py:190-197 | leaving keeps the room within capacity with its host present |
| Rooms.CreateRoom | backend/main.py:586-625 | rejected exactly for a capacity outside 2..10; otherwise a waiting room holding its host |
| Rooms.JoinRoom | backend/main.py:632-664 | unknown rooms refused; a human must match a set password, an AI need not; past that check the join succeeds exactly when the add-player step does, returns its refusal otherwise, and files the grown room |
| Rooms.LeaveRoom | backend/main.py:675-693 | refused exactly for an unknown room and succeeds on every known one; the player leaves and an emptied room is deleted |
| Rooms.RoomConfigs | backend/main.py:706 | one start entry per player, with their own id and difficulty medium |
| Rooms.StartRoomGame | backend/main.py:695-726 | needs two or more players; the game is a new game of the room's players, each keeping their id, name and AI flag, with the room's AI players in the AI table; the room is playing that game |
| Rooms.RoomAiTable | backend/main.py:706-708 | the AI table of a room's game is keyed by exactly the ids of the room's AI players |
| Rooms.ResetRoomStatus | backend/main.py:410-436 | the room that hosted the ended game is waiting with no game; every other room is unchanged |
| Rooms.EndpointsKeepRegistryOk | backend/main.py:586-726 | every room endpoint keeps every room well shaped |
| Rooms.ResetRoomAcceptsPlayers | backend/main.py:410-418 | after its game ends, a room with space accepts players again |
| Engine.Lookup | backend/main.py:750-752 | an unknown game id is a 404; otherwise the filed game |
| Server.StartGameAt | backend/main.py:728-746 | two to five players, else rejected; the new game is filed under its id, which the reply names |
| Server.StartRoomAt | backend/main.py:695-726 | needs a known room of two or more players; the room's game is filed under its id and the room starts it |
| Server.Call | backend/main.py:748-814 | an unknown game is not found; otherwise the engine's call, its game filed back under the same id; a call that ends the game resets the rooms |
| Server.Pass | backend/main.py:816-838 | an unknown game is not found; otherwise the engine's pass, its game filed back |
| Server.Reverse | backend/main.py:840-864 | an unknown game is not found; otherwise the engine's reverse, its game filed back |
| Server.StatusOf | backend/main.py:866-885 | an unknown game is not found; otherwise the engine's status |
| Server.AiAction | backend/main.py:887-936 | an unknown game is not found; otherwise the AI's move, its game filed back; an AI call that ends the game resets the rooms |
| Server.StartsKeepStoreOk | backend/main.py:695-746 | both ways of starting file a consistent game under its own id |
| Server.CallKeepsStoreOk | backend/main.py:748-814 | an accepted call keeps every filed game consistent and under its own id |
| Server.ActionsKeepStoreOk | backend/main.py:816-864 | an accepted pass or reverse keeps every filed game consistent and under its own id |
| Server.AiMoveIsConsistent | backend/main.py:887-936 | an accepted AI move leaves a consistent game with the same id |
| Server.AiKeepsStoreOk | backend/main.py:887-936 | the AI endpoint keeps every filed game consistent and under its own id |
| Server.StatusOfFiledGame | backend/main.py:866-885 | every filed game has a status, naming the game |
| Server.GameOverReopensRoom | backend/main.py:396-418 | a call that ends the game puts the hosting room back to waiting with no game and the same players; any other call leaves the rooms as they were |
| Server.AiGameOverReopensRoom | backend/main.py:396-418 | an AI call that ends the game puts the hosting room back to waiting with no game |
| Server.RoomGameLifecycle | backend/main.py:396-418 | starting a room game marks the room playing that game; a call ending it makes the room waiting again with no game |
| Legacy.NewGame | main.py:138-166 | request ids are ignored: player i gets id i, and the AI table is keyed by index |
| Legacy.StartGame | main.py:355-373 | two to five players; the reply names the current player by index |
| Legacy.CallNumbers | main.py:375-387 | every call on an existing game fails before any check or state change |
| Legacy.CallNumbersFixed | main.py:375-441 | with the numbers bound first: the turn is checked against the index, then the call is validated and applied |
| Legacy.UsePass | main.py:443-463 | the pass, with the turn checked against the index and the next player given by index |
| Legacy.UseReverse | main.py:465-487 | the reverse, with the turn checked against the index and the next player given by index |
| Legacy.GetStatus | main.py:489-507 | the status without a game id: round, range, called numbers, players and direction of the game, the current player by index, over exactly when at most one is alive |
| Legacy.AiTurn | main.py:509-558 | the legacy AI endpoint: a decision to call always fails, only a pass succeeds |
| Legacy.CallRejectsValidCall | main.py:381-387 | a valid call of a fresh game is refused as written and accepted once corrected |
| Legacy.EngineKeepsIds | main.py:300-332 | the moves never change who has which id |
| Legacy.LegacyAgreesWithEngine | main.py:443-507 | on index-numbered games the corrected legacy call, the pass and the reverse equal the current server's, and the legacy status is the current one without its game id |
| Legacy.StartGameAt | main.py:355-373 | two to five players, else rejected; the new game is filed under its id |
| Legacy.CallAt | main.py:375-387 | an unknown game is not found; on a filed game every call fails with the unbound local |
| Legacy.PassAt | main.py:443-463 | an unknown game is not found; otherwise the pass, its game filed back under the same id |
| Legacy.ReverseAt | main.py:465-487 | an unknown game is not found; otherwise the reverse, its game filed back under the same id |
| Legacy.StatusAt | main.py:489-507 | an unknown game is not found; otherwise the legacy status |
| Legacy.AiAt | main.py:509-558 | an unknown game is not found; otherwise the legacy AI move, its game filed back |
| Legacy.EndpointsKeepLegacyStoreOk | main.py:355-487 | start, pass and reverse keep every filed game consistent, under its own id, with ids equal to positions |
| Legacy.AiKeepsLegacyStoreOk | main.py:509-558 | the legacy AI endpoint keeps the table in shape |
| Board.Select | src/pages/GameBoard.tsx:36-53 | a selected number is deselected; a new one joins a selection of under three only if the sorted result is a run; the selection is kept sorted |
| Board.DeselectRemovesExactly | src/pages/GameBoard.tsx:37-38 | deselecting removes exactly that number and keeps the others in order |
| Board.SelectKeepsShape | src/pages/GameBoard.tsx:36-53 | the selection stays strictly increasing and at most three long |
| Board.MiddleDeselectLeavesGap | src/pages/GameBoard.tsx:37-38 | deselecting the middle of a three-run leaves a selection the server refuses as not consecutive |
| Board.FindById | src/pages/GameBoard.tsx:33 | the first player with the id, or none |
| Board.CallRequestOf | src/pages/GameBoard.tsx:55-67 | an empty selection sends nothing; otherwise the selection is sent for the snapshot's current player |
| Board.PassRequestOf | src/pages/GameBoard.tsx:102-113 | sent exactly when the current player's pass is unused |
| Board.ReverseRequestOf | src/pages/GameBoard.tsx:127-138 | sent exactly when the current player's reverse is unused |
| Board.AfterCall | src/pages/GameBoard.tsx:83-99 | a fresh status replaces the snapshot and clears the selection; a failure changes nothing |
| Board.AfterAction | src/pages/GameBoard.tsx:115-124 | a fresh status replaces the snapshot; the selection is kept |
| Board.GuardsMatchServer | src/pages/GameBoard.tsx:102-131 | on a mirrored status, the client's pass and reverse guards let a request through exactly when the server accepts it |
| Grid.GridNumbers | src/components/NumberGrid.tsx:29-30 | the cells are exactly the numbers from min to max, defaulting to 1 and 100, as an ascending run |
| Grid.ColourIndex | src/components/NumberGrid.tsx:44-56 | an index into the eight-colour palette |
| Grid.OwnerOf | src/components/NumberGrid.tsx:36-41 | the first listed player who owns the number, found whenever one is listed |
| Grid.CellOf | src/components/NumberGrid.tsx:61-74 | disabled exactly when the grid is, the number is called or blocked; owners only for called numbers; selected variant first, then called |
| Grid.Cells | src/components/NumberGrid.tsx:60-74 | one cell per grid number in increasing order, each built by the cell rule; enabled exactly when the grid is, the number is uncalled and the callback allows it |
| Grid.EnabledCellsAreCallable | src/components/NumberGrid.tsx:63 | on the game screen the enabled cells are exactly the numbers the server accepts as a one-number call |
| GameSetup.DefaultName | src/pages/GameStart.tsx:23 | the default name is the player word, a space and the number |
| GameSetup.Init | src/pages/GameStart.tsx:13-14 | two players with their default names |
| GameSetup.Clamp | src/pages/GameStart.tsx:18 | the count stays in 2..5 and an in-range value is kept |
| GameSetup.UpdateCount | src/pages/GameStart.tsx:17-28 | the clamped count; a positive step appends the new default name, any other drops the last name |
| GameSetup.Click | src/pages/GameStart.tsx:71-89 | a disabled stepper button does nothing; an enabled one steps by one |
| GameSetup.ClickKeepsSynced | src/pages/GameStart.tsx:71-89 | clicks keep one name per player between two and five, and default names stay default |
| GameSetup.UngatedMinusDesyncs | src/pages/GameStart.tsx:17-28 | without the disabled state, a minus step at two players leaves one name |
| GameSetup.UpdatePlayerName | src/pages/GameStart.tsx:30-34 | only the edited name changes |
| GameSetup.Trim | src/pages/GameStart.tsx:38 | white space is dropped from both ends; the result is empty exactly for a blank name |
| GameSetup.StartRequest | src/pages/GameStart.tsx:36-41 | refused exactly when some name is blank; otherwise the names are sent |
| GameSetup.DefaultsPassTheGuard | src/pages/GameStart.tsx:36-41 | default names are never blank |
| Socket.Fresh | src/services/WebSocketService.ts:4-8 | no socket, no handlers, reconnection on |
| Socket.Connect | src/services/WebSocketService.ts:18-23 | the held socket is closed; a new socket on the channel is opened, distinct from the old one; reconnection is on |
| Socket.Disconnect | src/services/WebSocketService.ts:50-56 | reconnection is off; the held socket is closed and dropped |
| Socket.Subscribe | src/services/WebSocketService.ts:58-59 | the handler is appended |
| Socket.Unsubscribe | src/services/WebSocketService.ts:60-62 | every registration of the handler goes; every other handler stays, as often as it was registered |
| Socket.UnsubscribeKeepsOrder | src/services/WebSocketService.ts:60-62 | the remaining handlers keep their order: the filter works part by part |
| Socket.SubscribeThenUnsubscribe | src/services/WebSocketService.ts:58-63 | unsubscribing a handler registered once restores the handler list |
| Socket.Deliveries | src/services/WebSocketService.ts:30-35 | handlers are called in order up to and including the first that throws |
| Socket.OnMessage | src/services/WebSocketService.ts:29-36 | a payload that does not parse reaches no handler; otherwise every handler, in order, when none throws |
| Socket.OnClose | src/services/WebSocketService.ts:38-43 | any socket's close schedules a reconnection to its own channel whenever the service-wide flag is on |
| Socket.Fire | src/services/WebSocketService.ts:41 | the timer reconnects to the closed socket's channel, closing whatever is held |
| Socket.StaleCloseRevivesOldChannel | src/services/WebSocketService.ts:38-43 | lobby, disconnect, room: the lobby socket's late close moves the service back to the lobby |
| Socket.StaleCloseBounces | src/services/WebSocketService.ts:38-43 | a stale close moves the service to the stale channel and sets up the same situation in reverse |
| Socket.OnCloseGuarded | src/services/WebSocketService.ts:38-43 | a reconnection is scheduled exactly when the held socket closes with the flag on |
| Socket.FireGuarded | src/services/WebSocketService.ts:41 | the timer reconnects only if the service still holds the closed socket with the flag on |
| Socket.GuardedAgreesOnLiveSocket | src/services/WebSocketService.ts:38-43 | for the held socket, the corrected handlers do what the originals do |
| Socket.GuardedKeepsChannel | src/services/WebSocketService.ts:38-43 | with the corrections, closes and timers never change the channel or revive a disconnected service |
| Socket.GuardedStaleCloseIsIgnored | src/services/WebSocketService.ts:38-43 | in the lobby-to-room scenario, the corrected handlers do nothing |
| Avatar.RequestedSize | src/components/ui/avatar.tsx:28 | the requested size defaults to 64 |
| Avatar.Lookup | src/components/ui/avatar.tsx:62 | the file of the variant of that size, found exactly when one is listed |
| Avatar.FindAtLeast | src/components/ui/avatar.tsx:60 | the first size at least the requested one, the smallest such for ascending sizes |
| Avatar.ChooseSize | src/components/ui/avatar.tsx:58-60 | the smallest size at least the requested one, unless it is 0 or there is none: then the largest |
| Avatar.Entries | src/components/ui/avatar.tsx:63 | one srcset entry per size, in order, each naming that size's file and width |
| Avatar.Effect | src/components/ui/avatar.tsx:32-77 | an explicit src wins; no file name changes nothing; otherwise the base image, replaced by the chosen variant once a manifest lists the file and the effect is live |
| Avatar.EffectIsIdempotent | src/components/ui/avatar.tsx:32-77 | running the effect again with the same props and manifest leaves the image as the first run set it |
| Avatar.ManifestPicksChosenVariant | src/components/ui/avatar.tsx:59-63 | the sorted sizes list each variant once in ascending order, and the chosen size names a listed file |
| Avatar.EmptyVariantsBreakImage | src/components/ui/avatar.tsx:55-66 | an empty variant list replaces the base image with /images/undefined and an empty srcset |
| Avatar.ZeroSizeFallsToLargest | src/components/ui/avatar.tsx:60 | a chosen size of 0 is falsy and gives way to the largest |

## Left out

- Persistence is left out: the SQLite game, action and statistics records and
  the leaderboard and statistics endpoints. They only record what happens.
- The WebSocket server is left out: the connection manager, broadcasts,
  lobby and room notifications, and the inactive-room cleanup task. These are
  I/O and timers.
- The read-only room listing and lookup, and room serialisation, are left
  out.
- The empty `leave_room` stub (backend/main.py:666-670) is left out. Its body
  does nothing.
- Generated values are left out:
  - random room names;
  - clock-derived player ids, which are parameters;
  - the loop that draws a fresh room id, which becomes a fresh-id
    precondition of `Rooms.CreateRoom`.
- Engine.Draw: the uniform distribution of `random.randint` is not modelled,
  only its range.
- Ai.DecideAction: the probability 0.6 and the distribution of the count
  draw are not modelled. They are the `coin` and `pick` inputs.
- Ai.AiTurn: the endpoint's reverse branch is not modelled. `decide_action`
  never returns a reverse, so the branch never runs.
- Rooms.ResetRoomStatus: every room holding the ended game's id is reset,
  whereas the loop stops at the first one. Game ids are fresh uuids and only
  one room ever holds a given one.
- A full room whose game ends is reset to waiting while still full; the model
  keeps that behaviour.
- A room game has no upper bound on players beyond the room's capacity of up
  to ten; the model keeps that behaviour.
- The set-up form sends its names as `players`, a list of strings. The start
  endpoint expects player entries, so the request shape is not modelled. Only
  the client-side guard is.
- GameSetup.UpdatePlayerName: requires an index of a listed name. The form
  only renders inputs for listed names.
- Browser side effects are left out: navigation, toasts, animations,
  rendering details, the status fetches' transport, and logging.
- After a socket is replaced, the old socket may still deliver messages
  until it is closed. This is not modelled.
- The avatar manifest is cached at module level once fetched, and a failed
  fetch is retried the next time. The model takes the fetch result as an
  input.
- Avatar manifest keys are taken to be canonical decimals, as the variant
  generator writes them.

## Findings

| source | as written | input that shows it | evidently intended | confidence | as-written member | corrected member |
|---|---|---|---|---|---|---|
| main.py:381-387 | the log line before the turn check reads `numbers`, which is only assigned at line 387, so Python raises an unbound-local error on every call to an existing game | a fresh two-player game whose first player calls just the secret | bind `numbers` first, then check the turn, validate and apply the call | not executed; high | Legacy.CallRejectsValidCall | Legacy.CallNumbersFixed |
| src/services/WebSocketService.ts:38-43 | every socket's `onclose` checks only the service-wide `shouldReconnect` flag, which the next `connect` raises again | lobby page connects to `lobby`; leaving it runs `disconnect`, and the room page runs `connect("room_7")`; the lobby socket's close event then arrives | only the held socket's close schedules a reconnection, and a timer does nothing once the service has moved on | not executed; medium | Socket.StaleCloseRevivesOldChannel | Socket.OnCloseGuarded |

=== FILE: ai.dfy ===
/** The computer player of the server (`AIPlayer.decide_action` and the
    `ai-action` endpoint of backend/main.py). The two random draws of the
    decision arrive as inputs: `coin` is the outcome of the 60% pass draw and
    `pick` selects how many numbers to call. */
module Ai {
  import opened Types
  import opened Seqs
  import opened Engine
  import opened GameInvariants

  /** A decision of `decide_action`. It never decides to reverse, so the
      endpoint's reverse branch is never taken and has no counterpart here. */
  datatype AiAction = PassAction | CallAction(numbers: seq<int>)

  /** What the endpoint returns after carrying out the AI's move: the reply of
      the endpoint it delegated to, and the game afterwards. */
  datatype AiOutcome =
    | Called(reply: CallReply, game: Game)
    | Passed(next: int, game: Game)

  /** The numbers of [lo, hi] not yet called, in ascending order. */
  function Available(lo: int, hi: int, called: set<int>): (r: seq<int>)
    ensures Increasing(r)
    ensures forall x :: x in r <==> lo <= x <= hi && x !in called
    decreases hi - lo + 1
  {
    if lo > hi then []
    else
      var rest := Available(lo + 1, hi, called);
      if lo in called then rest
      else
        assert forall k :: 0 <= k < |rest| ==> lo < rest[k] by {
          forall k | 0 <= k < |rest| ensures lo < rest[k] {
            assert rest[k] in rest;
          }
        }
        [lo] + rest
  }

  /** The danger test `len(called) / width > 0.75`; a width of zero is a
      division by zero. */
  function Danger(calledCount: nat, r: Range): (d: Result<bool, ApiError>)
    ensures d.Err? <==> r.hi - r.lo + 1 == 0
    ensures d.Ok? ==> (d.value <==> (calledCount as real) / ((r.hi - r.lo + 1) as real) > 0.75)
  {
    var w := r.hi - r.lo + 1;
    if w == 0 then Err(DivisionByZero)
    else
      RatioAboveThreeQuarters(calledCount, w);
      Ok(w > 0 && 4 * calledCount > 3 * w)
  }

  lemma RatioAboveThreeQuarters(c: nat, w: int)
    requires w != 0
    ensures (c as real) / (w as real) > 0.75 <==> w > 0 && 4 * c > 3 * w
  {
    if w > 0 {
      RatioPositiveWidth(c, w);
    } else {
      RatioNegativeWidth(c, w);
    }
  }

  lemma RatioPositiveWidth(c: nat, w: int)
    requires w > 0
    ensures (c as real) / (w as real) > 0.75 <==> 4 * c > 3 * w
  {
    var cr, wr := c as real, w as real;
    var q := cr / wr;
    assert q * wr == cr;
    if q > 0.75 {
      var e := q - 0.75;
      assert e * wr > 0.0;
      assert e * wr == cr - 0.75 * wr;
    } else {
      var e := 0.75 - q;
      assert e * wr >= 0.0;
      assert e * wr == 0.75 * wr - cr;
    }
  }

  lemma RatioNegativeWidth(c: nat, w: int)
    requires w < 0
    ensures !((c as real) / (w as real) > 0.75)
  {
    var cr, wr := c as real, w as real;
    var q := cr / wr;
    assert q * wr == cr;
    assert q * (-wr) == -cr;
    assert q <= 0.0;
  }

  /** The `count` numbers of `s` starting at index `j` form a run. */
  predicate RunAt(s: seq<int>, j: int, count: nat)
  {
    0 <= j && j + count <= |s| && Consecutive(s[j..j + count])
  }

  /** `ns` occurs in `s` as a contiguous slice starting at index `j`. */
  predicate SliceAt(s: seq<int>, j: int, ns: seq<int>)
  {
    0 <= j && j + |ns| <= |s| && s[j..j + |ns|] == ns
  }

  /** The first start index, at or after `i`, of a window of `count`
      consecutive numbers in `avail`. */
  function FindWindow(avail: seq<int>, count: nat, i: nat): (r: Option<nat>)
    requires 1 <= count <= |avail|
    ensures r.Some? ==> i <= r.value && RunAt(avail, r.value, count)
    ensures r.Some? ==> forall j :: i <= j < r.value ==> !RunAt(avail, j, count)
    ensures r.None? ==> forall j :: i <= j ==> !RunAt(avail, j, count)
    decreases |avail| - i
  {
    if i > |avail| - count then None
    else if RunAt(avail, i, count) then Some(i)
    else FindWindow(avail, count, i + 1)
  }

  /** A run of `count` starts at `i` and at no earlier index. */
  predicate FirstRunAt(s: seq<int>, i: int, count: nat)
  {
    RunAt(s, i, count) && forall j :: 0 <= j < i ==> !RunAt(s, j, count)
  }

  function Min(a: int, b: int): int
  {
    if a <= b then a else b
  }

  /** The numbers the AI calls once it has drawn `count`: the first run of
      `count` consecutive available numbers, or the smallest available
      number when there is none. */
  function WindowCall(avail: seq<int>, count: nat): (ns: seq<int>)
    requires 1 <= count <= |avail|
    ensures 1 <= |ns| <= count && Consecutive(ns)
    ensures exists i :: SliceAt(avail, i, ns)
    ensures (exists i :: RunAt(avail, i, count)) ==>
      exists i :: FirstRunAt(avail, i, count) && |ns| == count && SliceAt(avail, i, ns)
    ensures (forall i :: !RunAt(avail, i, count)) ==> ns == [avail[0]]
  {
    match FindWindow(avail, count, 0)
    case Some(i) =>
      assert SliceAt(avail, i, avail[i..i + count]);
      avail[i..i + count]
    case None =>
      assert SliceAt(avail, 0, [avail[0]]);
      [avail[0]]
  }

  /** `decide_action`. `avail` is the sorted list of available numbers. The
      AI passes when the range is crowded and the coin says so, or when
      nothing is left; otherwise it calls the first run of `count` consecutive
      available numbers, falling back to the smallest one. The AI never reverses.
      `None` is the decision of a player with nothing to call and no pass. */
  function DecideAction(calledCount: nat, r: Range, avail: seq<int>, passAvailable: bool,
                        coin: bool, pick: nat): (a: Result<Option<AiAction>, ApiError>)
    requires Increasing(avail)
    ensures a.Err? <==> r.hi - r.lo + 1 == 0
    ensures a.Err? ==> a.error == DivisionByZero
    ensures a.Ok? && a.value == Some(PassAction) ==> passAvailable
    ensures a.Ok? ==>
      (a.value == Some(PassAction) <==> passAvailable && ((coin && Danger(calledCount, r) == Ok(true)) || |avail| == 0))
    ensures a.Ok? ==> (a.value.None? <==> |avail| == 0 && !passAvailable)
    ensures a.Ok? && passAvailable && coin && Danger(calledCount, r) == Ok(true) ==> a.value == Some(PassAction)
    ensures a.Ok? && a.value.Some? && a.value.value.CallAction? ==>
      var ns := a.value.value.numbers;
      && 1 <= |ns| <= 3 && Consecutive(ns)
      && exists i :: SliceAt(avail, i, ns)
    ensures a.Ok? && !passAvailable && |avail| > 0 ==> a.value.Some? && a.value.value.CallAction?
    ensures a.Ok? && |avail| > 0 && !(passAvailable && coin && Danger(calledCount, r) == Ok(true)) ==>
      var count := 1 + pick % Min(3, |avail|);
      && a.value.Some? && a.value.value.CallAction?
      && ((exists i :: RunAt(avail, i, count)) ==>
            exists i :: FirstRunAt(avail, i, count) && |a.value.value.numbers| == count
                        && SliceAt(avail, i, a.value.value.numbers))
      && ((forall i :: !RunAt(avail, i, count)) ==> a.value.value.numbers == [avail[0]])
  {
    match Danger(calledCount, r)
    case Err(e) => Err(e)
    case Ok(danger) =>
      if danger && passAvailable && coin then Ok(Some(PassAction))
      else if |avail| == 0 then Ok(if passAvailable then Some(PassAction) else None)
      else Ok(Some(CallAction(WindowCall(avail, 1 + pick % Min(3, |avail|)))))
  }

  /** A single number is always a run, so a one-number pick calls the
      smallest available number. */
  lemma OnePickCallsSmallest(calledCount: nat, r: Range, avail: seq<int>, passAvailable: bool,
                             coin: bool, pick: nat)
    requires Increasing(avail) && |avail| > 0 && r.hi - r.lo + 1 != 0
    requires pick % Min(3, |avail|) == 0
    requires !(passAvailable && coin && Danger(calledCount, r) == Ok(true))
    ensures DecideAction(calledCount, r, avail, passAvailable, coin, pick) == Ok(Some(CallAction([avail[0]])))
  {
    assert RunAt(avail, 0, 1);
    assert avail[0..1] == [avail[0]];
  }

  /** Every call the AI decides on, from the numbers still available in the
      game, passes the server's call validation. */
  lemma AiCallIsValid(g: Game, coin: bool, pick: nat, ns: seq<int>)
    requires WellFormed(g)
    ensures DecideAction(|g.called|, g.range, Available(g.range.lo, g.range.hi, g.called),
                         Current(g).passAvailable, coin, pick) == Ok(Some(CallAction(ns)))
      ==> ValidateCall(g, ns).None?
  {
    var avail := Available(g.range.lo, g.range.hi, g.called);
    if DecideAction(|g.called|, g.range, avail, Current(g).passAvailable, coin, pick) != Ok(Some(CallAction(ns))) {
      return;
    }
    var i :| SliceAt(avail, i, ns);
    forall n | n in ns
      ensures n in avail
    {
      var k :| 0 <= k < |ns| && ns[k] == n;
      assert avail[i + k] == n;
    }
    RunOfAvailableIsValid(g, ns);
  }

  /** A run of one to three numbers, all still available, is a valid call. */
  lemma RunOfAvailableIsValid(g: Game, ns: seq<int>)
    requires 1 <= |ns| <= 3 && Consecutive(ns)
    requires forall n :: n in ns ==> n in Available(g.range.lo, g.range.hi, g.called)
    ensures ValidateCall(g, ns).None?
  {
    ConsecutiveOffsets(ns);
    SortKeepsAscending(ns);
  }

  /** The decision the endpoint asks of the current player's AI, from the
      numbers of the range still available. */
  function Decision(g: Game, coin: bool, pick: nat): (a: Result<Option<AiAction>, ApiError>)
    requires WellFormed(g)
    ensures a.Ok? && a.value.Some? && a.value.value.CallAction? ==>
      ValidateCall(g, a.value.value.numbers).None?
  {
    var a := DecideAction(|g.called|, g.range, Available(g.range.lo, g.range.hi, g.called),
                          Current(g).passAvailable, coin, pick);
    match a
    case Ok(Some(CallAction(ns))) => AiCallIsValid(g, coin, pick, ns); a
    case _ => a
  }

  /** `get_ai_action`: only on an AI's turn, with its AI registered; the
      decision is carried out through the call, pass or reverse endpoint
      under the AI's own id. A missing decision makes the endpoint fail. */
  function AiTurn(g: Game, coin: bool, pick: nat, seed: nat): (r: Result<AiOutcome, ApiError>)
    requires WellFormed(g)
    ensures !Current(g).isAi ==> r == Err(NotAiTurn)
    ensures Current(g).isAi && Current(g).id !in g.aiManager ==> r == Err(AiMissing)
    ensures r.Ok? ==> WellFormed(r.value.game) && |r.value.game.players| == |g.players|
    ensures r.Ok? && r.value.Passed? ==>
      && Decision(g, coin, pick) == Ok(Some(PassAction))
      && UsePass(g, Current(g).id) == Ok((r.value.next, r.value.game))
    ensures r.Ok? && r.value.Called? ==>
      exists ns ::
        && Decision(g, coin, pick) == Ok(Some(CallAction(ns)))
        && CallNumbers(g, Current(g).id, ns, seed) == Ok((r.value.reply, r.value.game))
    ensures Current(g).isAi && Current(g).id in g.aiManager && Decision(g, coin, pick).Err? ==>
      r == Err(Decision(g, coin, pick).error)
    ensures Current(g).isAi && Current(g).id in g.aiManager && Decision(g, coin, pick) == Ok(None) ==>
      r == Err(NoAiAction)
    ensures r.Ok? <==>
      Current(g).isAi && Current(g).id in g.aiManager
      && Decision(g, coin, pick).Ok? && Decision(g, coin, pick).value.Some?
  {
    var p := Current(g);
    if !p.isAi then Err(NotAiTurn)
    else if p.id !in g.aiManager then Err(AiMissing)
    else
      match Decision(g, coin, pick)
      case Err(e) => Err(e)
      case Ok(None) => Err(NoAiAction)
      case Ok(Some(action)) =>
        match action
        case CallAction(ns) =>
          (match CallNumbers(g, p.id, ns, seed)
           case Err(e) => Err(e)
           case Ok((reply, g2)) => Ok(Called(reply, g2)))
        case PassAction =>
          (match UsePass(g, p.id)
           case Err(e) => Err(e)
           case Ok((next, g2)) => Ok(Passed(next, g2)))
  }

  /** In a game still being played, an AI whose turn it is and that is
      registered always makes a move the server accepts. */
  lemma AiTurnSucceeds(g: Game, coin: bool, pick: nat, seed: nat)
    requires Consistent(g) && CountAlive(g.players) >= 2
    requires Current(g).isAi && Current(g).id in g.aiManager
    ensures AiTurn(g, coin, pick, seed).Ok?
    ensures Consistent(AiTurn(g, coin, pick, seed).value.game)
  {
    var p := Current(g);
    var avail := Available(g.range.lo, g.range.hi, g.called);
    assert g.secret in avail;
    var a := DecideAction(|g.called|, g.range, avail, p.passAvailable, coin, pick);
    assert a.Ok? && a.value.Some?;
    match a.value.value
    case CallAction(ns) =>
      AiCallIsValid(g, coin, pick, ns);
      CallKeepsConsistent(g, p.id, ns, seed);
    case PassAction =>
      PassKeepsConsistent(g, p.id);
  }
}

=== FILE: avatar.dfy ===
/** The avatar image of the client (src/components/ui/avatar.tsx): which
    image file and which `srcset` the component settles on. The manifest
    fetch is an input: it either failed or produced a table from avatar file
    names to their variants, each variant a pixel size and a file name, in the
    order the manifest lists them. Sizes are taken to be written in canonical
    decimal, so parsing a key and printing it back gives the same key. */
module Avatar {
  import opened Types
  import opened Seqs

  datatype Props = Props(
    src: Option<string>,
    srcSet: Option<string>,
    avatarFilename: Option<string>,
    requestedSize: Option<int>)

  /** The component's state: the `src` and `srcSet` it passes on. */
  datatype Image = Image(src: Option<string>, srcSet: Option<string>)

  type Variants = seq<(int, string)>

  datatype Load = Loaded(manifest: map<string, Variants>) | LoadFailed

  const DefaultSize: int := 64
  const ImageDir: string := "/images/"

  /** A JavaScript string is truthy when it is present and not empty. */
  predicate Truthy(s: Option<string>)
  {
    s.Some? && s.value != ""
  }

  /** The requested size, 64 when the prop is absent. */
  function RequestedSize(p: Props): (n: int)
    ensures p.requestedSize.None? ==> n == DefaultSize
    ensures p.requestedSize.Some? ==> n == p.requestedSize.value
  {
    if p.requestedSize.Some? then p.requestedSize.value else DefaultSize
  }

  /** The sizes a manifest entry lists, in its order. */
  function SizesOf(vs: Variants): (r: seq<int>)
    ensures |r| == |vs|
    ensures forall i :: 0 <= i < |vs| ==> r[i] == vs[i].0
  {
    if |vs| == 0 then [] else [vs[0].0] + SizesOf(vs[1..])
  }

  /** `variants[String(s)]`: the file of the variant of size `s`. */
  function Lookup(vs: Variants, s: int): (f: Option<string>)
    ensures f.Some? <==> exists i :: 0 <= i < |vs| && vs[i].0 == s
    ensures f.Some? ==> exists i :: 0 <= i < |vs| && vs[i] == (s, f.value)
  {
    if |vs| == 0 then None
    else if vs[0].0 == s then Some(vs[0].1)
    else Lookup(vs[1..], s)
  }

  /** `sizes.find(s => s >= requested)`. */
  function FindAtLeast(sizes: seq<int>, req: int): (r: Option<int>)
    ensures r.Some? ==> r.value in sizes && r.value >= req
    ensures r.None? <==> forall s :: s in sizes ==> s < req
    ensures r.Some? && Ascending(sizes) ==> forall s :: s in sizes && s >= req ==> r.value <= s
  {
    if |sizes| == 0 then None
    else if sizes[0] >= req then Some(sizes[0])
    else
      var r := FindAtLeast(sizes[1..], req);
      assert forall s :: s in sizes ==> s == sizes[0] || s in sizes[1..];
      r
  }

  /** The size chosen: the smallest size at least the requested one, and
      otherwise the largest. The fallback is written with `||`, so a smallest
      fitting size of 0 counts as none; an empty list chooses nothing. */
  function ChooseSize(sizes: seq<int>, req: int): (r: Option<int>)
    requires Ascending(sizes)
    ensures r.Some? <==> |sizes| > 0
    ensures r.Some? ==> r.value in sizes
    ensures forall s ::
      s in sizes && req <= s && s != 0 && (forall u :: u in sizes && req <= u ==> s <= u) ==> r == Some(s)
    ensures |sizes| > 0 && (forall s :: s in sizes && req <= s ==> s == 0) ==> r == Some(sizes[|sizes| - 1])
  {
    match FindAtLeast(sizes, req)
    case Some(s) => if s != 0 then Some(s) else if |sizes| > 0 then Some(sizes[|sizes| - 1]) else None
    case None => if |sizes| > 0 then Some(sizes[|sizes| - 1]) else None
  }

  /** A file name as a template literal prints it: a missing one is
      `undefined`. */
  function Printed(f: Option<string>): string
  {
    if f.Some? then f.value else "undefined"
  }

  /** One `srcset` entry: the image path, a space, the width descriptor. */
  function Entry(file: Option<string>, s: int): string
  {
    ImageDir + Printed(file) + " " + DecimalString(s) + "w"
  }

  /** The `srcset` entries, one per size, in the order of `sizes`. */
  function Entries(vs: Variants, sizes: seq<int>): (r: seq<string>)
    ensures |r| == |sizes|
    ensures forall i :: 0 <= i < |sizes| ==> r[i] == Entry(Lookup(vs, sizes[i]), sizes[i])
  {
    if |sizes| == 0 then [] else [Entry(Lookup(vs, sizes[0]), sizes[0])] + Entries(vs, sizes[1..])
  }

  /** `Array.prototype.join`. */
  function Join(xs: seq<string>, sep: string): (r: string)
    ensures |xs| == 0 ==> r == ""
    ensures |xs| == 1 ==> r == xs[0]
  {
    if |xs| == 0 then "" else if |xs| == 1 then xs[0] else xs[0] + sep + Join(xs[1..], sep)
  }

  /** What the manifest makes of an entry: the chosen file and the full
      `srcset`. */
  function FromVariants(vs: Variants, req: int): Image
  {
    var sizes := Sort(SizesOf(vs));
    var chosen := ChooseSize(sizes, req);
    Image(Some(ImageDir + Printed(if chosen.Some? then Lookup(vs, chosen.value) else None)),
          Some(Join(Entries(vs, sizes), ", ")))
  }

  /** The effect of `AvatarImage`, from the state `current`. An explicit
      `src` wins; without a file name nothing changes; otherwise the base
      image is shown at once and, unless the manifest failed, lacks the file
      or the effect was cancelled, replaced by the chosen variant. */
  function Effect(p: Props, current: Image, load: Load, cancelled: bool): (img: Image)
    ensures Truthy(p.src) ==> img == Image(p.src, p.srcSet)
    ensures !Truthy(p.src) && !Truthy(p.avatarFilename) ==> img == current
    ensures !Truthy(p.src) && Truthy(p.avatarFilename) ==>
      var f := p.avatarFilename.value;
      var base := Image(Some(ImageDir + f), current.srcSet);
      && (load.LoadFailed? || cancelled || (load.Loaded? && f !in load.manifest) ==> img == base)
      && (load.Loaded? && f in load.manifest && !cancelled ==>
            img == FromVariants(load.manifest[f], RequestedSize(p)))
  {
    if Truthy(p.src) then Image(p.src, p.srcSet)
    else if !Truthy(p.avatarFilename) then current
    else
      var f := p.avatarFilename.value;
      var base := Image(Some(ImageDir + f), current.srcSet);
      match load
      case LoadFailed => base
      case Loaded(m) =>
        if f !in m || cancelled then base
        else FromVariants(m[f], RequestedSize(p))
  }

  /** Re-running the effect with the same props and the same load leaves
      the image as the first run set it: the outcome does not depend on the
      state the effect starts from, beyond the `srcSet` the base image keeps. */
  lemma EffectIsIdempotent(p: Props, current: Image, load: Load, cancelled: bool)
    ensures var once := Effect(p, current, load, cancelled);
      Effect(p, once, load, cancelled) == once
  {
  }

  /** No two variants share a size. */
  predicate DistinctSizes(vs: Variants)
  {
    forall i, j :: 0 <= i < j < |vs| ==> vs[i].0 != vs[j].0
  }

  predicate NoDup(s: seq<int>)
  {
    forall i, j :: 0 <= i < j < |s| ==> s[i] != s[j]
  }

  /** A sequence without duplicates holds each value at most once. */
  lemma {:induction false} NoDupCountsOne(s: seq<int>, x: int)
    requires NoDup(s)
    ensures multiset(s)[x] <= 1
    decreases |s|
  {
    if |s| > 0 {
      assert s == [s[0]] + s[1..];
      assert NoDup(s[1..]) by {
        forall i, j | 0 <= i < j < |s| - 1
          ensures s[1..][i] != s[1..][j]
        {
          assert s[1..][i] == s[i + 1] && s[1..][j] == s[j + 1];
        }
      }
      NoDupCountsOne(s[1..], x);
      if s[0] == x {
        assert x !in s[1..] by {
          forall k | 0 <= k < |s| - 1
            ensures s[1..][k] != x
          {
            assert s[1..][k] == s[k + 1];
          }
        }
      }
    }
  }

  /** A value at two positions is counted at least twice. */
  lemma DupCountsTwo(s: seq<int>, i: int, j: int)
    requires 0 <= i < j < |s| && s[i] == s[j]
    ensures multiset(s)[s[i]] >= 2
  {
    assert s == s[..j] + s[j..];
    assert s[i] == s[..j][i];
    assert s[j] == s[j..][0];
    assert s[i] in multiset(s[..j]) && s[j] in multiset(s[j..]);
  }

  /** Sorting a sequence without duplicates gives a strictly increasing one. */
  lemma SortNoDupIncreasing(raw: seq<int>)
    requires NoDup(raw)
    ensures Increasing(Sort(raw))
  {
    var sizes := Sort(raw);
    forall i, j | 0 <= i < j < |sizes|
      ensures sizes[i] < sizes[j]
    {
      if sizes[i] == sizes[j] {
        DupCountsTwo(sizes, i, j);
        NoDupCountsOne(raw, sizes[i]);
        assert false;
      }
    }
  }

  /** With the manifest loaded, the sorted sizes list every variant once, in
      ascending order; a size is always chosen and names one of the
      variants' files, and every `srcset` entry names its size's file. */
  lemma ManifestPicksChosenVariant(vs: Variants, req: int)
    requires |vs| > 0 && DistinctSizes(vs)
    ensures var sizes := Sort(SizesOf(vs));
      && |sizes| == |vs| && Increasing(sizes)
      && (forall i :: 0 <= i < |vs| ==> vs[i].0 in sizes)
      && (forall i :: 0 <= i < |sizes| ==> Lookup(vs, sizes[i]).Some?)
      && ChooseSize(sizes, req).Some?
      && FromVariants(vs, req).src == Some(ImageDir + Lookup(vs, ChooseSize(sizes, req).value).value)
  {
    var raw := SizesOf(vs);
    var sizes := Sort(raw);
    SortNoDupIncreasing(raw);
    forall i | 0 <= i < |vs|
      ensures vs[i].0 in sizes
    {
      assert raw[i] in multiset(raw);
    }
    forall i | 0 <= i < |sizes|
      ensures Lookup(vs, sizes[i]).Some?
    {
      assert sizes[i] in multiset(raw);
      var k :| 0 <= k < |raw| && raw[k] == sizes[i];
      assert vs[k].0 == sizes[i];
    }
  }

  /** An empty variant list still replaces the base image: nothing is
      chosen, so the image becomes `/images/undefined` and the `srcset` the
      empty string. */
  lemma EmptyVariantsBreakImage(p: Props, current: Image, m: map<string, Variants>)
    requires !Truthy(p.src) && Truthy(p.avatarFilename)
    requires p.avatarFilename.value in m && m[p.avatarFilename.value] == []
    ensures Effect(p, current, Loaded(m), false) == Image(Some("/images/undefined"), Some(""))
  {
    var sizes := Sort(SizesOf(m[p.avatarFilename.value]));
    assert sizes == [];
    assert ChooseSize(sizes, RequestedSize(p)).None?;
    assert Entries([], sizes) == [];
    assert ImageDir + Printed(None) == "/images/undefined";
  }

  /** A requested size of zero or less, with a zero-size variant, falls past
      the zero and picks the largest variant. */
  lemma ZeroSizeFallsToLargest()
    ensures ChooseSize([0, 40, 64], 0) == Some(64)
  {
    assert 0 in [0, 40, 64];
  }
}

=== FILE: board.dfy ===
/** The game screen of the client (src/pages/GameBoard.tsx): the number
    selection rule and the guards the action buttons run before any request
    is sent. The requests themselves and the status fetch that follows are
    inputs: a reply is either the fresh status or a failure. */
module Board {
  import opened Types
  import opened Seqs
  import opened Engine

  /** The game state the client holds (src/types/game.ts). */
  datatype Snapshot = Snapshot(
    gameId: string,
    currentRound: int,
    currentPlayer: int,
    range: Range,
    called: seq<int>,
    players: seq<Player>,
    direction: int,
    gameOver: bool,
    winner: Option<int>)

  /** The screen: the snapshot and the numbers selected for the next call. */
  datatype Screen = Screen(snapshot: Snapshot, selection: seq<int>)

  datatype SelectRefusal = NotAdjacent | TooMany

  datatype SelectOutcome = Updated(selection: seq<int>) | Refused(reason: SelectRefusal)

  /** `handleNumberSelect`: clicking a selected number deselects it, wherever
      it sits; a new number joins a selection of fewer than three only if the
      result, sorted, is a run; the stored selection is kept sorted. */
  function Select(sel: seq<int>, n: int): (o: SelectOutcome)
    ensures n in sel ==> o.Updated? && forall x :: x in o.selection <==> x in sel && x != n
    ensures n !in sel && |sel| >= 3 ==> o == Refused(TooMany)
    ensures n !in sel && |sel| < 3 ==> (o.Updated? <==> Consecutive(Sort(sel + [n])))
    ensures n !in sel && o.Updated? ==>
      Ascending(o.selection) && multiset(o.selection) == multiset(sel) + multiset{n}
  {
    if n in sel then Updated(RemoveAll(sel, n))
    else if |sel| < 3 then
      if |sel| > 0 && !Consecutive(Sort(sel + [n])) then Refused(NotAdjacent)
      else Updated(Sort(sel + [n]))
    else Refused(TooMany)
  }

  /** Deselecting removes exactly the clicked number from its position and
      keeps the others in order. */
  lemma DeselectRemovesExactly(sel: seq<int>, k: int)
    requires Increasing(sel) && 0 <= k < |sel|
    ensures Select(sel, sel[k]) == Updated(sel[..k] + sel[k + 1..])
  {
    RemoveSingle(sel, k);
  }

  /** Starting from the empty selection, every sequence of clicks keeps the
      selection strictly increasing and at most three long. */
  lemma SelectKeepsShape(sel: seq<int>, n: int)
    requires Increasing(sel) && |sel| <= 3
    ensures var o := Select(sel, n);
      o.Updated? ==> Increasing(o.selection) && |o.selection| <= 3
    ensures Select(sel, n).Refused? ==> n !in sel
  {
    if n in sel {
      RemoveKeepsIncreasing(sel, n);
    } else if |sel| < 3 {
      var s := Sort(sel + [n]);
      if |sel| > 0 {
        if Consecutive(s) {
          ConsecutiveOffsets(s);
        }
      } else {
        assert s == [n] by {
          assert multiset(s) == multiset{n};
          assert s[0] in multiset(s);
        }
      }
    }
  }

  /** Four and six, sorted, are four and six, and they are not a run. */
  lemma GapIsNotARun()
    ensures Sort([4, 6]) == [4, 6] && !Consecutive([4, 6])
  {
    assert [4, 6][1] != [4, 6][0] + 1;
    SortKeepsAscending([4, 6]);
  }

  /** Clicking five in the run four, five, six leaves four and six. */
  lemma DeselectMiddle()
    ensures Select([4, 5, 6], 5) == Updated([4, 6])
  {
    assert [4, 5, 6][1..] == [5, 6] && [5, 6][1..] == [6] && [6][1..] == [];
    assert RemoveAll([6], 5) == [6];
    assert RemoveAll([5, 6], 5) == [6];
    assert RemoveAll([4, 5, 6], 5) == [4, 6];
  }

  /** Deselecting the middle of a three-number run leaves a gap: the
      selection is no longer a run, and the server refuses to accept it. */
  lemma MiddleDeselectLeavesGap(g: Game)
    requires g.range.Contains(4) && g.range.Contains(6)
    ensures Select([4, 5, 6], 5) == Updated([4, 6])
    ensures !Consecutive([4, 6])
    ensures ValidateCall(g, [4, 6]) == Some(NotConsecutive)
  {
    DeselectMiddle();
    GapIsNotARun();
  }

  /** The request a button sends. */
  datatype Request =
    | CallRequest(gameId: string, playerId: int, numbers: seq<int>)
    | PassRequest(gameId: string, playerId: int)
    | ReverseRequest(gameId: string, playerId: int)

  datatype Notice = EmptySelection | PassSpent | ReverseSpent

  /** `players.find(p => p.id === id)`: the index of the first player with
      that id. */
  function FindById(ps: seq<Player>, id: int): (r: Option<nat>)
    ensures r.Some? ==> r.value < |ps| && ps[r.value].id == id
    ensures r.Some? ==> forall j :: 0 <= j < r.value ==> ps[j].id != id
    ensures r.None? <==> forall j :: 0 <= j < |ps| ==> ps[j].id != id
  {
    if |ps| == 0 then None
    else if ps[0].id == id then Some(0)
    else match FindById(ps[1..], id)
      case None => None
      case Some(k) => Some(k + 1)
  }

  /** The guard of `handleCallNumbers`: an empty selection sends nothing;
      otherwise the selection is sent for the player the snapshot names. */
  function CallRequestOf(s: Screen): (r: Result<Request, Notice>)
    ensures r.Err? <==> |s.selection| == 0
    ensures r.Err? ==> r.error == EmptySelection
    ensures r.Ok? ==>
      && r.value.CallRequest? && r.value.playerId == s.snapshot.currentPlayer
      && r.value.numbers == s.selection && r.value.gameId == s.snapshot.gameId
  {
    if |s.selection| == 0 then Err(EmptySelection)
    else Ok(CallRequest(s.snapshot.gameId, s.snapshot.currentPlayer, s.selection))
  }

  /** The guard of `handlePass`: the current player, looked up by id, must
      still have the pass; a player the snapshot does not list has none. */
  function PassRequestOf(s: Snapshot): (r: Result<Request, Notice>)
    ensures r.Ok? <==> exists k ::
      && 0 <= k < |s.players| && s.players[k].id == s.currentPlayer && s.players[k].passAvailable
      && forall j :: 0 <= j < k ==> s.players[j].id != s.currentPlayer
    ensures r.Err? ==> r.error == PassSpent
    ensures r.Ok? ==> r.value == PassRequest(s.gameId, s.currentPlayer)
  {
    match FindById(s.players, s.currentPlayer)
    case Some(k) =>
      if s.players[k].passAvailable then Ok(PassRequest(s.gameId, s.currentPlayer)) else Err(PassSpent)
    case None => Err(PassSpent)
  }

  /** The guard of `handleReverse`, as for the pass. */
  function ReverseRequestOf(s: Snapshot): (r: Result<Request, Notice>)
    ensures r.Ok? <==> exists k ::
      && 0 <= k < |s.players| && s.players[k].id == s.currentPlayer && s.players[k].reverseAvailable
      && forall j :: 0 <= j < k ==> s.players[j].id != s.currentPlayer
    ensures r.Err? ==> r.error == ReverseSpent
    ensures r.Ok? ==> r.value == ReverseRequest(s.gameId, s.currentPlayer)
  {
    match FindById(s.players, s.currentPlayer)
    case Some(k) =>
      if s.players[k].reverseAvailable then Ok(ReverseRequest(s.gameId, s.currentPlayer)) else Err(ReverseSpent)
    case None => Err(ReverseSpent)
  }

  /** After a call: a fresh status replaces the snapshot and clears the
      selection; a failure (of the call or of the status fetch) changes
      nothing. */
  function AfterCall(s: Screen, status: Option<Snapshot>): (s': Screen)
    ensures status.Some? ==> s'.snapshot == status.value && s'.selection == []
    ensures status.None? ==> s' == s
  {
    match status
    case Some(st) => Screen(st, [])
    case None => s
  }

  /** After a pass or a reverse: a fresh status replaces the snapshot but the
      selection is kept; a failure changes nothing. */
  function AfterAction(s: Screen, status: Option<Snapshot>): (s': Screen)
    ensures s'.selection == s.selection
    ensures status.Some? ==> s'.snapshot == status.value
    ensures status.None? ==> s' == s
  {
    match status
    case Some(st) => s.(snapshot := st)
    case None => s
  }

  /** The snapshot mirrors the server's status report. */
  ghost predicate Mirrors(s: Snapshot, st: Status)
  {
    && s.players == st.players && s.currentPlayer == st.currentPlayer
    && s.range == st.range && (forall x :: x in s.called <==> x in st.called)
    && s.direction == st.direction && s.gameOver == st.gameOver && s.winner == st.winner
  }

  predicate DistinctIds(ps: seq<Player>)
  {
    forall i, j :: 0 <= i < j < |ps| ==> ps[i].id != ps[j].id
  }

  /** With distinct player ids and a snapshot taken from the server's
      status, the client's pass and reverse guards let a request through
      exactly when the server will accept it. */
  lemma GuardsMatchServer(g: Game, s: Snapshot)
    requires WellFormed(g) && DistinctIds(g.players)
    requires GetStatus(g).Ok? && Mirrors(s, GetStatus(g).value)
    ensures PassRequestOf(s).Ok? <==> UsePass(g, s.currentPlayer).Ok?
    ensures ReverseRequestOf(s).Ok? <==> UseReverse(g, s.currentPlayer).Ok?
  {
    var k := FindById(s.players, s.currentPlayer);
    assert s.players[g.currentIndex].id == s.currentPlayer;
    assert k == Some(g.currentIndex);
  }
}

=== FILE: engine.dfy ===
/** The number-guessing game engine of the server (backend/main.py): the game
    record, the round schedule, turn rotation, number calls with range
    narrowing, the single-use pass and reverse actions, elimination and the
    status report. Randomness (the secret number, the game id) arrives as
    inputs; the database writes and console output are not modelled. */
module Engine {
  import opened Types
  import opened Seqs

  type Difficulty = string

  /** One entry of a start request: `id` absent falls back to the list index,
      `difficulty` absent falls back to "medium". */
  datatype PlayerConfig = PlayerConfig(
    id: Option<int>,
    name: string,
    isAi: bool,
    difficulty: Option<Difficulty>)

  /** The server-side game. `aiManager` maps the id of each AI participant to
      its difficulty; `secret` is the number that eliminates whoever calls it. */
  datatype Game = Game(
    gameId: string,
    players: seq<Player>,
    aiManager: map<int, Difficulty>,
    currentRound: int,
    currentIndex: int,
    direction: int,
    called: set<int>,
    secret: int,
    range: Range)

  /** The shape every game keeps: someone to point at, and a direction of +1
      or -1. */
  predicate WellFormed(g: Game)
  {
    && 0 < |g.players|
    && 0 <= g.currentIndex < |g.players|
    && (g.direction == 1 || g.direction == -1)
  }

  function Current(g: Game): Player
    requires WellFormed(g)
  {
    g.players[g.currentIndex]
  }

  /** Number of players still in the game. */
  function CountAlive(ps: seq<Player>): (c: nat)
    ensures c <= |ps|
  {
    if |ps| == 0 then 0
    else (if ps[0].isAlive then 1 else 0) + CountAlive(ps[1..])
  }

  /** Two player lists that agree on who is alive have the same alive count. */
  lemma {:induction false} SameAlivenessSameCount(ps: seq<Player>, qs: seq<Player>)
    requires |ps| == |qs|
    requires forall i :: 0 <= i < |ps| ==> ps[i].isAlive == qs[i].isAlive
    ensures CountAlive(ps) == CountAlive(qs)
    decreases |ps|
  {
    if |ps| > 0 {
      SameAlivenessSameCount(ps[1..], qs[1..]);
    }
  }

  /** Index of the first alive player, if any. */
  function FirstAliveIndex(ps: seq<Player>): (r: Option<nat>)
    ensures r.Some? ==> r.value < |ps| && ps[r.value].isAlive
    ensures r.Some? ==> forall j :: 0 <= j < r.value ==> !ps[j].isAlive
    ensures r.None? <==> forall j :: 0 <= j < |ps| ==> !ps[j].isAlive
    ensures r.None? <==> CountAlive(ps) == 0
  {
    if |ps| == 0 then None
    else if ps[0].isAlive then Some(0)
    else match FirstAliveIndex(ps[1..])
      case None => None
      case Some(i) => Some(i + 1)
  }

  /** `next((p.id for p in players if p.is_alive), None)`. */
  function FirstAliveId(ps: seq<Player>): Option<int>
  {
    match FirstAliveIndex(ps)
    case None => None
    case Some(i) => Some(ps[i].id)
  }

  // ----- round schedule -----------------------------------------------------

  /** Round 1 plays 1..30, round 2 plays 1..20, every later round 1..15. */
  function RoundRange(round: int): (r: Range)
    ensures r.lo == 1 && r.lo <= r.hi
    ensures round == 1 ==> r.hi == 30
    ensures round == 2 ==> r.hi == 20
    ensures round != 1 && round != 2 ==> r.hi == 15
  {
    if round == 1 then Range(1, 30)
    else if round == 2 then Range(1, 20)
    else Range(1, 15)
  }

  /** `random.randint(lo, hi)` with the random source as the input `seed`. */
  function Draw(r: Range, seed: nat): (x: int)
    requires r.lo <= r.hi
    ensures r.Contains(x)
  {
    r.lo + seed % (r.hi - r.lo + 1)
  }

  /** Every number of the range is drawn by some seed, so modelling the
      random source by a seed leaves no secret out. */
  lemma DrawCoversRange(r: Range, x: int)
    requires r.Contains(x)
    ensures Draw(r, (x - r.lo) as nat) == x
  {
  }

  /** Players that are alive get pass and reverse back; the dead are untouched. */
  function Restore(p: Player): Player
  {
    if p.isAlive then p.(passAvailable := true, reverseAvailable := true) else p
  }

  /** `_start_round`: the range of the round, a fresh secret, no called
      numbers, and both actions restored to every alive player. */
  function StartRound(g: Game, seed: nat): (g': Game)
    ensures g'.range == RoundRange(g.currentRound)
    ensures g'.range.Contains(g'.secret)
    ensures g'.called == {}
    ensures |g'.players| == |g.players|
    ensures forall i :: 0 <= i < |g.players| ==>
      var p, q := g.players[i], g'.players[i];
      && q.id == p.id && q.name == p.name && q.isAi == p.isAi && q.isAlive == p.isAlive
      && (p.isAlive ==> q.passAvailable && q.reverseAvailable)
      && (!p.isAlive ==> q == p)
    ensures g' == g.(players := g'.players, called := {}, secret := g'.secret, range := g'.range)
    ensures CountAlive(g'.players) == CountAlive(g.players)
    ensures WellFormed(g) ==> WellFormed(g')
  {
    var range := RoundRange(g.currentRound);
    var players := seq(|g.players|, i requires 0 <= i < |g.players| => Restore(g.players[i]));
    SameAlivenessSameCount(players, g.players);
    g.(range := range, secret := Draw(range, seed), called := {}, players := players)
  }

  // ----- turn rotation ------------------------------------------------------

  /** The index reached after `k` moves of `d` around a table of `n`
      (`(index + direction) % n`, repeated; Python's `%` with a positive
      divisor agrees with Dafny's). */
  function Step(i: int, d: int, n: nat, k: nat): (r: int)
    requires n > 0
    ensures 0 <= i < n ==> 0 <= r < n
  {
    if k == 0 then i else (Step(i, d, n, k - 1) + d) % n
  }

  /** The loop of `next_player`: move one seat, stop on an alive player, give
      up after `n` moves. */
  function Seek(ps: seq<Player>, i: int, d: int, steps: nat): (r: int)
    requires 0 <= i < |ps|
    requires steps <= |ps|
    ensures 0 <= r < |ps|
    decreases |ps| - steps
  {
    if steps == |ps| then i
    else
      var j := (i + d) % |ps|;
      if ps[j].isAlive then j else Seek(ps, j, d, steps + 1)
  }

  /** `next_player`: nothing moves while at most one player is alive. */
  function NextPlayer(g: Game): (g': Game)
    requires WellFormed(g)
    ensures WellFormed(g')
    ensures g' == g.(currentIndex := g'.currentIndex)
    ensures CountAlive(g.players) <= 1 ==> g' == g
  {
    if CountAlive(g.players) <= 1 then g
    else g.(currentIndex := Seek(g.players, g.currentIndex, g.direction, 0))
  }

  // ----- elimination --------------------------------------------------------

  /** The current player, marked dead. */
  function MarkCurrentDead(g: Game): (g': Game)
    requires WellFormed(g)
    ensures WellFormed(g')
    ensures !Current(g').isAlive
  {
    g.(players := g.players[g.currentIndex := Current(g).(isAlive := false)])
  }

  /** `eliminate_current_player`: the first component is the game-over flag. */
  function EliminateCurrent(g: Game, seed: nat): (e: (bool, Game))
    requires WellFormed(g)
    ensures WellFormed(e.1)
    ensures e.0 <==> CountAlive(e.1.players) == 1
    ensures |e.1.players| == |g.players|
    ensures !e.1.players[g.currentIndex].isAlive
    ensures forall i :: 0 <= i < |g.players| && i != g.currentIndex ==>
      e.1.players[i].isAlive == g.players[i].isAlive
    ensures e.1.gameId == g.gameId && e.1.aiManager == g.aiManager
  {
    var marked := MarkCurrentDead(g);
    var alive := CountAlive(marked.players);
    if alive == 1 then (true, marked)
    else if alive > 1 then
      (false, StartRound(NextPlayer(marked.(currentRound := g.currentRound + 1, direction := 1)), seed))
    else (false, marked)
  }

  // ----- number calls -------------------------------------------------------

  /** The reply of an accepted call. */
  datatype CallReply =
    | Hit(eliminated: int, gameOver: bool, following: Option<int>,
          calledNumbers: set<int>, winner: Option<int>, newRange: Range)
    | Miss(nextPlayer: int, calledNumbers: set<int>, newRange: Range)

  /** The checks of a call made by the right player, in the order the server
      runs them. */
  function ValidateCall(g: Game, numbers: seq<int>): (r: Option<ApiError>)
    ensures r.None? <==>
      && 1 <= |numbers| <= 3
      && Consecutive(Sort(numbers))
      && (forall n :: n in numbers ==> g.range.Contains(n) && n !in g.called)
    ensures r == Some(BadCallLength) <==> |numbers| < 1 || |numbers| > 3
    ensures r == Some(NotConsecutive) <==> 1 <= |numbers| <= 3 && !Consecutive(Sort(numbers))
  {
    if |numbers| < 1 || |numbers| > 3 then Some(BadCallLength)
    else if !Consecutive(Sort(numbers)) then Some(NotConsecutive)
    else if exists n :: n in numbers && !g.range.Contains(n) then Some(OutOfRange)
    else if exists n :: n in numbers && n in g.called then Some(AlreadyCalled)
    else None
  }

  /** The range update after a call that missed: every called number below the
      secret raises the lower bound past it, every one above lowers the upper
      bound below it. */
  function Narrow(r: Range, secret: int, numbers: seq<int>): (r': Range)
    ensures r.lo <= r'.lo && r'.hi <= r.hi
    ensures r.Contains(secret) && secret !in numbers ==> r'.Contains(secret)
    ensures forall n :: n in numbers && n < secret ==> n < r'.lo
    ensures forall n :: n in numbers && n > secret ==> r'.hi < n
    ensures r'.lo == r.lo || exists n :: n in numbers && n < secret && r'.lo == n + 1
    ensures r'.hi == r.hi || exists n :: n in numbers && n > secret && r'.hi == n - 1
    decreases |numbers|
  {
    if |numbers| == 0 then r
    else
      var n := numbers[0];
      var r1 :=
        if n < secret then Range(if r.lo < n + 1 then n + 1 else r.lo, r.hi)
        else if n > secret then Range(r.lo, if r.hi < n - 1 then r.hi else n - 1)
        else r;
      var r2 := Narrow(r1, secret, numbers[1..]);
      assert numbers == [n] + numbers[1..];
      assert forall m :: m in numbers <==> m == n || m in numbers[1..];
      assert r2.lo == r.lo || exists m :: m in numbers && m < secret && r2.lo == m + 1 by {
        if r2.lo != r1.lo {
          var m :| m in numbers[1..] && m < secret && r2.lo == m + 1;
          assert m in numbers;
        } else if r1.lo != r.lo {
          assert n in numbers && n < secret && r2.lo == n + 1;
        }
      }
      assert r2.hi == r.hi || exists m :: m in numbers && m > secret && r2.hi == m - 1 by {
        if r2.hi != r1.hi {
          var m :| m in numbers[1..] && m > secret && r2.hi == m - 1;
          assert m in numbers;
        } else if r1.hi != r.hi {
          assert n in numbers && n > secret && r2.hi == n - 1;
        }
      }
      r2
  }

  /** `call_numbers` on an existing game. */
  function CallNumbers(g: Game, playerId: int, numbers: seq<int>, seed: nat)
    : (r: Result<(CallReply, Game), ApiError>)
    requires WellFormed(g)
    ensures r.Err? <==> playerId != Current(g).id || ValidateCall(g, numbers).Some?
    ensures playerId != Current(g).id ==> r == Err(NotYourTurn)
    ensures r.Ok? ==> WellFormed(r.value.1) && |r.value.1.players| == |g.players|
    ensures r.Ok? && r.value.0.Miss? ==>
      && g.secret !in numbers
      && r.value.1.called == g.called + (set n | n in numbers)
      && r.value.1.players == g.players
    ensures r.Ok? ==> (r.value.0.Hit? <==> g.secret in numbers)
    ensures r.Ok? && r.value.0.Hit? ==>
      var e := EliminateCurrent(g.(called := g.called + (set n | n in numbers)), seed);
      && !r.value.1.players[g.currentIndex].isAlive
      && r.value.1 == e.1
      && r.value.0.eliminated == playerId && r.value.0.gameOver == e.0
      && (e.0 ==> r.value.0.following.None? && r.value.0.winner == FirstAliveId(e.1.players))
      && (!e.0 ==> r.value.0.following == Some(Current(e.1).id) && r.value.0.winner.None?)
    ensures r.Ok? && r.value.0.Miss? ==>
      && r.value.1 == NextPlayer(g.(called := g.called + (set n | n in numbers),
                                    range := Narrow(g.range, g.secret, numbers)))
      && r.value.0.nextPlayer == Current(r.value.1).id
  {
    if playerId != Current(g).id then Err(NotYourTurn)
    else match ValidateCall(g, numbers)
      case Some(e) => Err(e)
      case None =>
        var called := g.called + (set n | n in numbers);
        if g.secret in numbers then
          var (over, g2) := EliminateCurrent(g.(called := called), seed);
          var reply := Hit(playerId, over,
                           if over then None else Some(Current(g2).id),
                           g2.called,
                           if over then FirstAliveId(g2.players) else None,
                           g2.range);
          Ok((reply, g2))
        else
          var g2 := NextPlayer(g.(called := called, range := Narrow(g.range, g.secret, numbers)));
          Ok((Miss(Current(g2).id, g2.called, g2.range), g2))
  }

  // ----- pass and reverse ---------------------------------------------------

  /** `use_pass`: the reply is the id of the next player. */
  function UsePass(g: Game, playerId: int): (r: Result<(int, Game), ApiError>)
    requires WellFormed(g)
    ensures playerId != Current(g).id ==> r == Err(NotYourTurn)
    ensures playerId == Current(g).id && !Current(g).passAvailable ==> r == Err(PassUsed)
    ensures r.Ok? <==> playerId == Current(g).id && Current(g).passAvailable
    ensures r.Ok? ==>
      var g' := r.value.1;
      && WellFormed(g')
      && g'.players == g.players[g.currentIndex := Current(g).(passAvailable := false)]
      && g'.direction == g.direction && g'.called == g.called && g'.range == g.range
      && r.value.0 == Current(g').id
    ensures r.Ok? ==>
      r.value.1 == NextPlayer(g.(players := g.players[g.currentIndex := Current(g).(passAvailable := false)]))
  {
    var cur := Current(g);
    if playerId != cur.id then Err(NotYourTurn)
    else if !cur.passAvailable then Err(PassUsed)
    else
      var g2 := NextPlayer(g.(players := g.players[g.currentIndex := cur.(passAvailable := false)]));
      Ok((Current(g2).id, g2))
  }

  /** `use_reverse`: the reply is the new direction and the next player's id. */
  function UseReverse(g: Game, playerId: int): (r: Result<(int, int, Game), ApiError>)
    requires WellFormed(g)
    ensures playerId != Current(g).id ==> r == Err(NotYourTurn)
    ensures playerId == Current(g).id && !Current(g).reverseAvailable ==> r == Err(ReverseUsed)
    ensures r.Ok? <==> playerId == Current(g).id && Current(g).reverseAvailable
    ensures r.Ok? ==>
      var g' := r.value.2;
      && WellFormed(g')
      && g'.players == g.players[g.currentIndex := Current(g).(reverseAvailable := false)]
      && g'.direction == -g.direction && g'.called == g.called && g'.range == g.range
      && r.value.0 == g'.direction && r.value.1 == Current(g').id
    ensures r.Ok? ==>
      r.value.2 == NextPlayer(g.(players := g.players[g.currentIndex := Current(g).(reverseAvailable := false)],
                                 direction := -g.direction))
  {
    var cur := Current(g);
    if playerId != cur.id then Err(NotYourTurn)
    else if !cur.reverseAvailable then Err(ReverseUsed)
    else
      var g1 := g.(players := g.players[g.currentIndex := cur.(reverseAvailable := false)],
                   direction := -g.direction);
      var g2 := NextPlayer(g1);
      Ok((g2.direction, Current(g2).id, g2))
  }

  // ----- the games table ----------------------------------------------------

  /** The server's `games` table, keyed by game id. */
  type Store = map<string, Game>

  predicate StoreWellFormed(store: Store)
  {
    forall id :: id in store ==> WellFormed(store[id])
  }

  /** `games.get(game_id)`, the first step of every game endpoint: an id that
      is not filed is a 404. */
  function Lookup(store: Store, gameId: string): (r: Result<Game, ApiError>)
    ensures r.Err? <==> gameId !in store
    ensures r.Err? ==> r.error == GameNotFound
    ensures r.Ok? ==> r.value == store[gameId]
  {
    if gameId in store then Ok(store[gameId]) else Err(GameNotFound)
  }

  // ----- status and start ---------------------------------------------------

  /** The status report (also the shape of the start reply). */
  datatype Status = Status(
    gameId: string,
    currentRound: int,
    currentPlayer: int,
    range: Range,
    called: set<int>,
    players: seq<Player>,
    direction: int,
    gameOver: bool,
    winner: Option<int>)

  /** `get_status`: over when at most one player is alive, and only then a
      winner, the first alive player. With nobody alive, reading the first
      alive player fails. */
  function GetStatus(g: Game): (r: Result<Status, ApiError>)
    requires WellFormed(g)
    ensures r.Err? <==> CountAlive(g.players) == 0
    ensures r.Ok? ==> (r.value.gameOver <==> CountAlive(g.players) <= 1)
    ensures r.Ok? ==> (r.value.winner.Some? <==> r.value.gameOver)
    ensures r.Ok? && r.value.gameOver ==>
      exists i :: 0 <= i < |g.players| && g.players[i].isAlive
        && r.value.winner == Some(g.players[i].id)
        && forall j :: 0 <= j < i ==> !g.players[j].isAlive
    ensures r.Ok? ==> r.value.currentPlayer == Current(g).id
  {
    var over := CountAlive(g.players) <= 1;
    match FirstAliveIndex(g.players)
    case None => Err(NoAlivePlayer)
    case Some(i) =>
      Ok(Status(g.gameId, g.currentRound, Current(g).id, g.range, g.called, g.players,
                g.direction, over, if over then Some(g.players[i].id) else None))
  }

  function IdOf(c: PlayerConfig, i: int): int
  {
    match c.id
    case Some(x) => x
    case None => i
  }

  /** The AI table built from the first `k` configurations, later entries
      overwriting earlier ones with the same id. */
  function AiTable(cs: seq<PlayerConfig>, k: nat): (m: map<int, Difficulty>)
    requires k <= |cs|
    ensures forall id :: id in m <==> exists i :: 0 <= i < k && cs[i].isAi && IdOf(cs[i], i) == id
  {
    if k == 0 then map[]
    else
      var m := AiTable(cs, k - 1);
      var c := cs[k - 1];
      if c.isAi then
        m[IdOf(c, k - 1) := match c.difficulty case Some(d) => d case None => "medium"]
      else m
  }

  /** The constructor of `GameState`: round 1, first player, direction +1, and
      the first round started. */
  function NewGame(cs: seq<PlayerConfig>, gameId: string, seed: nat): (g: Game)
    ensures |g.players| == |cs|
    ensures forall i :: 0 <= i < |cs| ==>
      g.players[i] == Player(IdOf(cs[i], i), cs[i].name, cs[i].isAi, true, true, true)
    ensures g.currentRound == 1 && g.currentIndex == 0 && g.direction == 1
    ensures g.called == {} && g.range == Range(1, 30) && g.range.Contains(g.secret)
    ensures g.aiManager.Keys == set i | 0 <= i < |cs| && cs[i].isAi :: IdOf(cs[i], i)
    ensures 0 < |cs| ==> WellFormed(g)
  {
    var players := seq(|cs|, i requires 0 <= i < |cs| => Player(IdOf(cs[i], i), cs[i].name, cs[i].isAi, true, true, true));
    StartRound(Game(gameId, players, AiTable(cs, |cs|), 1, 0, 1, {}, 0, Range(1, 30)), seed)
  }

  /** `start_game`: two to five players, else rejected. */
  function StartGame(cs: seq<PlayerConfig>, gameId: string, seed: nat)
    : (r: Result<(Status, Game), ApiError>)
    ensures r.Err? <==> |cs| < 2 || |cs| > 5
    ensures r.Err? ==> r.error == BadPlayerCount
    ensures r.Ok? ==> r.value.1 == NewGame(cs, gameId, seed) && WellFormed(r.value.1)
    ensures r.Ok? ==> !r.value.0.gameOver && r.value.0.winner.None?
  {
    if |cs| < 2 || |cs| > 5 then Err(BadPlayerCount)
    else
      var g := NewGame(cs, gameId, seed);
      Ok((Status(g.gameId, g.currentRound, g.players[g.currentIndex].id, g.range, g.called,
                 g.players, g.direction, false, None), g))
  }
}

=== FILE: grid.dfy ===
/** The number grid of the client (src/components/NumberGrid.tsx): which
    cells exist, which are enabled, how a called number's owner is coloured
    and which button variant a cell takes. The optional `isNumberDisabled`
    callback is given as the set of numbers it disables. */
module Grid {
  import opened Types
  import opened Seqs
  import opened Engine

  datatype Variant = Default | Secondary | Outline

  /** A player as the grid looks them up: id and name. */
  datatype Owner = Owner(id: int, name: string)

  datatype Cell = Cell(
    number: int,
    called: bool,
    selected: bool,
    disabled: bool,
    variant: Variant,
    owner: Option<Owner>,
    colour: Option<nat>)

  /** JavaScript `x || d` on a number: zero is falsy. */
  function OrDefault(x: int, d: int): int
  {
    if x == 0 then d else x
  }

  /** `Array.from({ length: n }, (_, i) => lo + i)` for a length that is
      already non-negative. */
  function RunFrom(lo: int, n: nat): (r: seq<int>)
    ensures |r| == n
    ensures forall i :: 0 <= i < n ==> r[i] == lo + i
  {
    seq(n, i requires 0 <= i < n => lo + i)
  }

  /** The numbers of the grid: `min || 1` up to `max || 100`, with the whole
      range defaulting to [1, 100]; a negative length gives an empty grid. */
  function GridNumbers(range: Option<Range>): (r: seq<int>)
    ensures var rg := if range.Some? then range.value else Range(1, 100);
      var lo, hi := OrDefault(rg.lo, 1), OrDefault(rg.hi, 100);
      && (forall x :: x in r <==> lo <= x <= hi)
      && Consecutive(r) && Increasing(r)
      && |r| == if hi - lo + 1 < 0 then 0 else hi - lo + 1
  {
    var rg := if range.Some? then range.value else Range(1, 100);
    var lo, hi := OrDefault(rg.lo, 1), OrDefault(rg.hi, 100);
    var len := hi - lo + 1;
    var r := RunFrom(lo, if len < 0 then 0 else len);
    ConsecutiveOffsets(r);
    forall x | lo <= x <= hi
      ensures x in r
    {
      assert r[x - lo] == x;
    }
    r
  }

  /** `getPlayerColorClass`: the palette index `|id| % 8`. */
  function ColourIndex(id: int): (k: nat)
    ensures k < 8
  {
    (if id < 0 then -id else id) % 8
  }

  /** Position `k` holds the first player of `players` with id `id`. */
  predicate FirstWithId(players: seq<Owner>, k: int, id: int)
  {
    0 <= k < |players| && players[k].id == id && forall j :: 0 <= j < k ==> players[j].id != id
  }

  /** `getOwnerInfo`: the first listed player whose id is the number's owner. */
  function OwnerOf(owners: map<int, int>, players: seq<Owner>, n: int): (o: Option<Owner>)
    ensures o.Some? ==> n in owners && o.value in players && o.value.id == owners[n]
    ensures o.Some? ==> exists k :: FirstWithId(players, k, owners[n]) && players[k] == o.value
    ensures n in owners && (exists p :: p in players && p.id == owners[n]) ==> o.Some?
    decreases |players|
  {
    if n !in owners || |players| == 0 then None
    else if players[0].id == owners[n] then Some(players[0])
    else OwnerOf(owners, players[1..], n)
  }

  /** One cell: disabled when the whole grid is, when called, or when the
      callback says so; an owner only for called numbers; the selected
      variant first, then the called one. */
  function CellOf(n: int, called: seq<int>, selected: seq<int>, gridDisabled: bool,
                  blocked: set<int>, owners: map<int, int>, players: seq<Owner>): (c: Cell)
    ensures c.number == n
    ensures c.disabled <==> gridDisabled || n in called || n in blocked
    ensures c.owner.Some? ==> n in called
    ensures c.colour.Some? <==> c.owner.Some?
    ensures c.colour.Some? ==> c.colour.value < 8
    ensures c.variant == Default <==> n in selected
    ensures c.variant == Secondary <==> n !in selected && n in called
    ensures c.variant == Outline <==> n !in selected && n !in called
  {
    var isCalled := n in called;
    var isSelected := n in selected;
    var owner := if isCalled then OwnerOf(owners, players, n) else None;
    Cell(n, isCalled, isSelected,
         gridDisabled || isCalled || n in blocked,
         if isSelected then Default else if isCalled then Secondary else Outline,
         owner,
         match owner case Some(o) => Some(ColourIndex(o.id)) case None => None)
  }

  /** The rendered grid, `numbers.map(...)`: one cell per number of the
      grid, in increasing order, every cell built by the rule above; a cell
      is enabled exactly when the grid is, its number is uncalled and the
      callback leaves it enabled. */
  function Cells(range: Option<Range>, called: seq<int>, selected: seq<int>, gridDisabled: bool,
                 blocked: set<int>, owners: map<int, int>, players: seq<Owner>): (cs: seq<Cell>)
    ensures |cs| == |GridNumbers(range)|
    ensures forall i :: 0 <= i < |cs| ==>
      cs[i] == CellOf(GridNumbers(range)[i], called, selected, gridDisabled, blocked, owners, players)
    ensures forall i, j :: 0 <= i < j < |cs| ==> cs[i].number < cs[j].number
    ensures forall i :: 0 <= i < |cs| ==>
      (!cs[i].disabled <==> !gridDisabled && cs[i].number !in called && cs[i].number !in blocked)
  {
    var ns := GridNumbers(range);
    seq(|ns|, i requires 0 <= i < |ns| => CellOf(ns[i], called, selected, gridDisabled, blocked, owners, players))
  }

  /** On the game screen the grid shows the game's current range. In a game
      still being played, the enabled cells are exactly the numbers the
      server accepts as a one-number call. */
  lemma EnabledCellsAreCallable(g: Game, called: seq<int>, n: int)
    requires forall x :: x in called <==> x in g.called
    requires g.range.lo != 0 && g.range.hi != 0
    ensures var enabled := n in GridNumbers(Some(g.range))
              && !CellOf(n, called, [], false, {}, map[], []).disabled;
      enabled <==> ValidateCall(g, [n]).None?
  {
    assert Sort([n]) == [n];
    assert Consecutive([n]);
    assert forall m :: m in [n] <==> m == n;
    if ValidateCall(g, [n]).None? {
      assert g.range.Contains(n) && n !in g.called;
    }
  }
}

=== FILE: invariants.dfy ===
/** What the server engine keeps true across a whole game: while two or more
    players are alive the current player is alive and the secret is uncalled
    inside the range; once one is left, the eliminated player holds the turn
    and the secret is among the called numbers, so nothing can change the
    winner any more. */
module GameInvariants {
  import opened Types
  import opened Seqs
  import opened Engine
  import Rotation

  predicate Consistent(g: Game)
  {
    && WellFormed(g)
    && g.range.Contains(g.secret)
    && (|| (CountAlive(g.players) >= 2 && Current(g).isAlive && g.secret !in g.called)
        || (CountAlive(g.players) == 1 && !Current(g).isAlive && g.secret in g.called))
  }

  lemma {:induction false} AllAliveCount(ps: seq<Player>)
    requires forall i :: 0 <= i < |ps| ==> ps[i].isAlive
    ensures CountAlive(ps) == |ps|
    decreases |ps|
  {
    if |ps| > 0 {
      AllAliveCount(ps[1..]);
    }
  }

  /** Marking one alive player dead lowers the alive count by exactly one. */
  lemma {:induction false} MarkDeadCount(ps: seq<Player>, i: int)
    requires 0 <= i < |ps| && ps[i].isAlive
    ensures CountAlive(ps[i := ps[i].(isAlive := false)]) == CountAlive(ps) - 1
    decreases |ps|
  {
    var qs := ps[i := ps[i].(isAlive := false)];
    if i == 0 {
      assert qs[1..] == ps[1..];
    } else {
      assert qs[1..] == ps[1..][i - 1 := ps[i].(isAlive := false)];
      MarkDeadCount(ps[1..], i - 1);
    }
  }

  /** Lists that agree on ids and on who is alive name the same first alive player. */
  lemma {:induction false} SameAlivenessSameFirst(ps: seq<Player>, qs: seq<Player>)
    requires |ps| == |qs|
    requires forall i :: 0 <= i < |ps| ==> ps[i].isAlive == qs[i].isAlive && ps[i].id == qs[i].id
    ensures FirstAliveId(ps) == FirstAliveId(qs)
    ensures CountAlive(ps) == CountAlive(qs)
    decreases |ps|
  {
    SameAlivenessSameCount(ps, qs);
    if |ps| > 0 {
      SameAlivenessSameFirst(ps[1..], qs[1..]);
    }
  }

  /** A started game with two or more players is consistent. */
  lemma NewGameIsConsistent(cs: seq<PlayerConfig>, gameId: string, seed: nat)
    requires |cs| >= 2
    ensures Consistent(NewGame(cs, gameId, seed))
  {
    var g := NewGame(cs, gameId, seed);
    AllAliveCount(g.players);
  }

  /** An accepted call keeps the game consistent, hit or miss. */
  lemma CallKeepsConsistent(g: Game, playerId: int, numbers: seq<int>, seed: nat)
    requires Consistent(g)
    requires CallNumbers(g, playerId, numbers, seed).Ok?
    ensures Consistent(CallNumbers(g, playerId, numbers, seed).value.1)
  {
    assert ValidateCall(g, numbers).None?;
    var called := g.called + (set n | n in numbers);
    if g.secret in numbers {
      var g1 := g.(called := called);
      var marked := MarkCurrentDead(g1);
      MarkDeadCount(g1.players, g1.currentIndex);
      if CountAlive(marked.players) != 1 {
        var g2 := marked.(currentRound := g.currentRound + 1, direction := 1);
        Rotation.NextPlayerMovesToFirstAlive(g2);
      }
    } else {
      var g1 := g.(called := called, range := Narrow(g.range, g.secret, numbers));
      if CountAlive(g.players) >= 2 {
        Rotation.NextPlayerMovesToFirstAlive(g1);
      }
    }
  }

  /** An accepted pass keeps the game consistent. */
  lemma PassKeepsConsistent(g: Game, playerId: int)
    requires Consistent(g)
    requires UsePass(g, playerId).Ok?
    ensures Consistent(UsePass(g, playerId).value.1)
  {
    var g1 := g.(players := g.players[g.currentIndex := Current(g).(passAvailable := false)]);
    SameAlivenessSameCount(g1.players, g.players);
    if CountAlive(g.players) >= 2 {
      Rotation.NextPlayerMovesToFirstAlive(g1);
    }
  }

  /** An accepted reverse keeps the game consistent. */
  lemma ReverseKeepsConsistent(g: Game, playerId: int)
    requires Consistent(g)
    requires UseReverse(g, playerId).Ok?
    ensures Consistent(UseReverse(g, playerId).value.2)
  {
    var g1 := g.(players := g.players[g.currentIndex := Current(g).(reverseAvailable := false)],
                 direction := -g.direction);
    SameAlivenessSameCount(g1.players, g.players);
    if CountAlive(g.players) >= 2 {
      Rotation.NextPlayerMovesToFirstAlive(g1);
    }
  }

  /** A hand-over depends only on who is alive. */
  lemma HandedOverSameAliveness(ps: seq<Player>, qs: seq<Player>, i: int, d: int, i': int)
    requires |ps| == |qs| && 0 <= i < |ps|
    requires forall t :: 0 <= t < |ps| ==> ps[t].isAlive == qs[t].isAlive
    requires Rotation.HandedOver(qs, i, d, i')
    ensures Rotation.HandedOver(ps, i, d, i')
  {
    var k :| 1 <= k < |qs| && i' == Step(i, d, |qs|, k)
      && forall j :: 1 <= j < k ==> !qs[Step(i, d, |qs|, j)].isAlive;
    assert forall j :: 1 <= j < k ==> !ps[Step(i, d, |ps|, j)].isAlive;
  }

  /** With two or more players alive, a missed call hands the turn to the
      first alive player met walking in the direction of travel. */
  lemma MissHandsOverTurn(g: Game, playerId: int, numbers: seq<int>, seed: nat)
    requires WellFormed(g) && CountAlive(g.players) >= 2
    ensures var r := CallNumbers(g, playerId, numbers, seed);
      r.Ok? && r.value.0.Miss? ==>
        Rotation.HandedOver(g.players, g.currentIndex, g.direction, r.value.1.currentIndex)
  {
    var r := CallNumbers(g, playerId, numbers, seed);
    if r.Ok? && r.value.0.Miss? {
      var g1 := g.(called := g.called + (set n | n in numbers), range := Narrow(g.range, g.secret, numbers));
      assert r.value.1 == NextPlayer(g1);
      Rotation.NextPlayerMovesToFirstAlive(g1);
    }
  }

  /** With two or more players alive, a pass hands the turn on in the same
      way, the direction unchanged. */
  lemma PassHandsOverTurn(g: Game, playerId: int)
    requires WellFormed(g) && CountAlive(g.players) >= 2
    ensures var r := UsePass(g, playerId);
      r.Ok? ==> Rotation.HandedOver(g.players, g.currentIndex, g.direction, r.value.1.currentIndex)
  {
    var r := UsePass(g, playerId);
    if r.Ok? {
      var g1 := g.(players := g.players[g.currentIndex := Current(g).(passAvailable := false)]);
      assert r.value.1 == NextPlayer(g1);
      SameAlivenessSameCount(g1.players, g.players);
      Rotation.NextPlayerMovesToFirstAlive(g1);
      HandedOverSameAliveness(g.players, g1.players, g.currentIndex, g.direction, r.value.1.currentIndex);
    }
  }

  /** With two or more players alive, a reverse hands the turn to the first
      alive player met walking the other way round the table. */
  lemma ReverseHandsOverTurn(g: Game, playerId: int)
    requires WellFormed(g) && CountAlive(g.players) >= 2
    ensures var r := UseReverse(g, playerId);
      r.Ok? ==> Rotation.HandedOver(g.players, g.currentIndex, -g.direction, r.value.2.currentIndex)
  {
    var r := UseReverse(g, playerId);
    if r.Ok? {
      var g1 := g.(players := g.players[g.currentIndex := Current(g).(reverseAvailable := false)],
                   direction := -g.direction);
      assert r.value.2 == NextPlayer(g1);
      SameAlivenessSameCount(g1.players, g.players);
      Rotation.NextPlayerMovesToFirstAlive(g1);
      HandedOverSameAliveness(g.players, g1.players, g.currentIndex, -g.direction, r.value.2.currentIndex);
    }
  }

  /** A consistent game always has a status, and it is over exactly when the
      player holding the turn has been eliminated. */
  lemma StatusOfConsistent(g: Game)
    requires Consistent(g)
    ensures GetStatus(g).Ok?
    ensures GetStatus(g).value.gameOver <==> !Current(g).isAlive
  {
  }

  /** Once one player is left, every accepted move is a miss that changes
      nobody's fate: the status stays over with the same winner. */
  lemma GameOverIsFinal(g: Game, playerId: int, numbers: seq<int>, seed: nat)
    requires Consistent(g) && CountAlive(g.players) == 1
    ensures var r := CallNumbers(g, playerId, numbers, seed);
      r.Ok? ==>
        (&& r.value.0.Miss? && r.value.1.players == g.players
         && GetStatus(r.value.1).Ok? && GetStatus(r.value.1).value.gameOver
         && GetStatus(r.value.1).value.winner == GetStatus(g).value.winner)
    ensures var r := UsePass(g, playerId);
      r.Ok? ==>
        (&& GetStatus(r.value.1).Ok? && GetStatus(r.value.1).value.gameOver
         && GetStatus(r.value.1).value.winner == GetStatus(g).value.winner)
    ensures var r := UseReverse(g, playerId);
      r.Ok? ==>
        (&& GetStatus(r.value.2).Ok? && GetStatus(r.value.2).value.gameOver
         && GetStatus(r.value.2).value.winner == GetStatus(g).value.winner)
  {
    var p := UsePass(g, playerId);
    if p.Ok? {
      SameAlivenessSameFirst(p.value.1.players, g.players);
    }
    var v := UseReverse(g, playerId);
    if v.Ok? {
      SameAlivenessSameFirst(v.value.2.players, g.players);
    }
  }

  /** A miss narrows the range around the secret: the new range lies inside
      the old one, still holds the secret, and excludes every number called. */
  lemma MissNarrowsAroundSecret(g: Game, playerId: int, numbers: seq<int>, seed: nat)
    requires Consistent(g)
    requires CallNumbers(g, playerId, numbers, seed).Ok?
    requires CallNumbers(g, playerId, numbers, seed).value.0.Miss?
    ensures var g' := CallNumbers(g, playerId, numbers, seed).value.1;
      && g.range.lo <= g'.range.lo && g'.range.hi <= g.range.hi
      && g'.range.Contains(g'.secret) && g'.secret == g.secret
      && forall n :: n in numbers ==> !g'.range.Contains(n)
  {
  }

  /** The numbers of an accepted call, sorted, are a run m, m+1, ...: exactly
      the integers of an interval as long as the call. */
  lemma AcceptedCallIsRun(g: Game, numbers: seq<int>)
    requires ValidateCall(g, numbers).None?
    ensures var s := Sort(numbers);
      && (forall j :: 0 <= j < |s| ==> s[j] == s[0] + j)
      && (forall x :: x in numbers <==> s[0] <= x < s[0] + |numbers|)
  {
    var s := Sort(numbers);
    ConsecutiveOffsets(s);
    forall x
      ensures x in numbers <==> s[0] <= x < s[0] + |numbers|
    {
      calc {
        x in numbers;
        x in multiset(numbers);
        x in multiset(s);
        x in s;
      }
      if s[0] <= x < s[0] + |numbers| {
        assert s[x - s[0]] == x;
      }
    }
  }

  /** Eliminating the current player while three or more are alive starts
      the next round: the round number grows by one, the direction is +1
      again, the range follows the schedule with nothing called, the turn
      moves to another alive player, and every alive player has pass and
      reverse back. */
  lemma EliminationStartsNextRound(g: Game, seed: nat)
    requires WellFormed(g) && Current(g).isAlive && CountAlive(g.players) >= 3
    ensures var e := EliminateCurrent(g, seed); var g' := e.1;
      && !e.0
      && g'.currentRound == g.currentRound + 1 && g'.direction == 1
      && g'.range == RoundRange(g.currentRound + 1) && g'.range.Contains(g'.secret)
      && g'.called == {}
      && Current(g').isAlive && g'.currentIndex != g.currentIndex
      && forall i :: 0 <= i < |g'.players| && g'.players[i].isAlive ==>
           g'.players[i].passAvailable && g'.players[i].reverseAvailable
  {
    var marked := MarkCurrentDead(g);
    MarkDeadCount(g.players, g.currentIndex);
    var g2 := marked.(currentRound := g.currentRound + 1, direction := 1);
    Rotation.NextPlayerMovesToFirstAlive(g2);
  }

  /** Eliminating the current player when two are alive ends the game, and
      the status names the other one as winner. */
  lemma EliminationEndsGame(g: Game, seed: nat)
    requires WellFormed(g) && Current(g).isAlive && CountAlive(g.players) == 2
    ensures var e := EliminateCurrent(g, seed); var g' := e.1;
      && e.0
      && g' == MarkCurrentDead(g)
      && GetStatus(g').Ok? && GetStatus(g').value.gameOver
      && exists i :: 0 <= i < |g.players| && i != g.currentIndex && g.players[i].isAlive
           && GetStatus(g').value.winner == Some(g.players[i].id)
  {
    MarkDeadCount(g.players, g.currentIndex);
    var g' := MarkCurrentDead(g);
    var i := FirstAliveIndex(g'.players).value;
    assert i != g.currentIndex;
    assert g'.players[i] == g.players[i];
  }
}

=== FILE: legacy.dfy ===
/** The older single-file server (main.py). Its round schedule, turn
    rotation and elimination are the same code as the current engine's and
    are reused from `Engine`; it differs in that player ids are list indices,
    turns are checked against the current index, and its call handler reads
    the request's numbers before binding them. */
module Legacy {
  import opened Types
  import opened Seqs
  import opened Engine
  import opened GameInvariants
  import Ai

  /** Every player's id is its position. */
  predicate IdsAreIndices(g: Game)
  {
    forall i :: 0 <= i < |g.players| ==> g.players[i].id == i
  }

  /** The legacy constructor: any id in the request is ignored; player i gets
      id i and the AI table is keyed by index. */
  function NewGame(cs: seq<PlayerConfig>, gameId: string, seed: nat): (g: Game)
    ensures IdsAreIndices(g)
    ensures |g.players| == |cs|
    ensures forall i :: 0 <= i < |cs| ==>
      g.players[i] == Player(i, cs[i].name, cs[i].isAi, true, true, true)
    ensures g.aiManager.Keys == set i | 0 <= i < |cs| && cs[i].isAi
    ensures g.currentRound == 1 && g.currentIndex == 0 && g.direction == 1
    ensures g.called == {} && g.range == Range(1, 30) && g.range.Contains(g.secret)
  {
    var indexed := seq(|cs|, i requires 0 <= i < |cs| => cs[i].(id := Some(i)));
    var g := Engine.NewGame(indexed, gameId, seed);
    assert forall i :: 0 <= i < |cs| ==> IdOf(indexed[i], i) == i;
    g
  }

  /** `start_game`: two to five players; the reply names the current player
      by index. */
  function StartGame(cs: seq<PlayerConfig>, gameId: string, seed: nat)
    : (r: Result<(Status, Game), ApiError>)
    ensures r.Err? <==> |cs| < 2 || |cs| > 5
    ensures r.Err? ==> r.error == BadPlayerCount
    ensures r.Ok? ==> r.value.1 == NewGame(cs, gameId, seed) && Consistent(r.value.1)
    ensures r.Ok? ==> r.value.0.currentPlayer == 0 && !r.value.0.gameOver && r.value.0.winner.None?
  {
    if |cs| < 2 || |cs| > 5 then Err(BadPlayerCount)
    else
      var g := NewGame(cs, gameId, seed);
      AllAliveCount(g.players);
      Ok((Status(g.gameId, g.currentRound, g.currentIndex, g.range, g.called, g.players,
                 g.direction, false, None), g))
  }

  /** `call_numbers` as written: the console line before the turn check reads
      `numbers`, which the function only assigns afterwards, so every call on
      an existing game fails with an unbound local before any check or state
      change. */
  function CallNumbers(g: Game, playerId: int, numbers: seq<int>, seed: nat)
    : (r: Result<(CallReply, Game), ApiError>)
    ensures r.Err? && r.error == UnboundNumbers
  {
    Err(UnboundNumbers)
  }

  /** `call_numbers` with `numbers` bound before use: the turn is checked
      against the current index, then the engine's validation, narrowing and
      elimination apply, and the reply names players by index. */
  function CallNumbersFixed(g: Game, playerId: int, numbers: seq<int>, seed: nat)
    : (r: Result<(CallReply, Game), ApiError>)
    requires WellFormed(g)
    ensures playerId != g.currentIndex ==> r == Err(NotYourTurn)
    ensures r.Err? <==> playerId != g.currentIndex || ValidateCall(g, numbers).Some?
    ensures r.Ok? ==> WellFormed(r.value.1) && (r.value.0.Hit? <==> g.secret in numbers)
  {
    if playerId != g.currentIndex then Err(NotYourTurn)
    else
      match Engine.CallNumbers(g, Current(g).id, numbers, seed)
      case Err(e) => Err(e)
      case Ok((reply, g2)) =>
        var reply' := match reply
          case Hit(_, over, _, called, winner, range) =>
            Hit(playerId, over, if over then None else Some(g2.currentIndex), called, winner, range)
          case Miss(_, called, range) => Miss(g2.currentIndex, called, range);
        Ok((reply', g2))
  }

  /** `use_pass`, the turn checked against the current index. */
  function UsePass(g: Game, playerId: int): (r: Result<(int, Game), ApiError>)
    requires WellFormed(g)
    ensures playerId != g.currentIndex ==> r == Err(NotYourTurn)
    ensures r.Ok? <==> playerId == g.currentIndex && Current(g).passAvailable
    ensures r.Ok? ==>
      && r.value.0 == r.value.1.currentIndex
      && r.value.1.players == g.players[g.currentIndex := Current(g).(passAvailable := false)]
  {
    if playerId != g.currentIndex then Err(NotYourTurn)
    else
      match Engine.UsePass(g, Current(g).id)
      case Err(e) => Err(e)
      case Ok((_, g2)) => Ok((g2.currentIndex, g2))
  }

  /** `use_reverse`, the turn checked against the current index. */
  function UseReverse(g: Game, playerId: int): (r: Result<(int, int, Game), ApiError>)
    requires WellFormed(g)
    ensures playerId != g.currentIndex ==> r == Err(NotYourTurn)
    ensures r.Ok? <==> playerId == g.currentIndex && Current(g).reverseAvailable
    ensures r.Ok? ==>
      && r.value.0 == -g.direction && r.value.1 == r.value.2.currentIndex
      && r.value.2.players == g.players[g.currentIndex := Current(g).(reverseAvailable := false)]
  {
    if playerId != g.currentIndex then Err(NotYourTurn)
    else
      match Engine.UseReverse(g, Current(g).id)
      case Err(e) => Err(e)
      case Ok((dir, _, g2)) => Ok((dir, g2.currentIndex, g2))
  }

  /** The legacy status reply: the fields of the current server's, without
      the game id. */
  datatype LegacyStatus = LegacyStatus(
    currentRound: int,
    currentPlayer: int,
    range: Range,
    called: set<int>,
    players: seq<Player>,
    direction: int,
    gameOver: bool,
    winner: Option<int>)

  /** A status reply with its game id left out. */
  function DropGameId(s: Status): LegacyStatus
  {
    LegacyStatus(s.currentRound, s.currentPlayer, s.range, s.called, s.players,
                 s.direction, s.gameOver, s.winner)
  }

  /** `get_status`: as the engine's, with the current player given by index
      and no game id in the reply. */
  function GetStatus(g: Game): (r: Result<LegacyStatus, ApiError>)
    requires WellFormed(g)
    ensures r.Err? <==> CountAlive(g.players) == 0
    ensures r.Ok? ==> r.value.currentPlayer == g.currentIndex
    ensures r.Ok? ==> (r.value.gameOver <==> CountAlive(g.players) <= 1)
    ensures r.Ok? ==> (r.value.winner.Some? <==> r.value.gameOver)
    ensures r.Ok? ==>
      && r.value.currentRound == g.currentRound && r.value.range == g.range
      && r.value.called == g.called && r.value.players == g.players && r.value.direction == g.direction
  {
    match Engine.GetStatus(g)
    case Err(e) => Err(e)
    case Ok(s) => Ok(DropGameId(s).(currentPlayer := g.currentIndex))
  }

  /** The defect: on a fresh two-player game, the first player calling just
      the secret is a valid call the engine accepts, yet the legacy handler
      rejects it, while the corrected handler accepts it. */
  lemma CallRejectsValidCall(cs: seq<PlayerConfig>, gameId: string, seed: nat)
    requires |cs| == 2
    ensures var g := NewGame(cs, gameId, seed);
      && WellFormed(g)
      && ValidateCall(g, [g.secret]).None?
      && CallNumbers(g, 0, [g.secret], seed).Err?
      && CallNumbersFixed(g, 0, [g.secret], seed).Ok?
  {
    var g := NewGame(cs, gameId, seed);
    assert Sort([g.secret]) == [g.secret];
  }

  /** The engine's moves never change who has which id. */
  lemma EngineKeepsIds(g: Game, playerId: int, numbers: seq<int>, seed: nat)
    requires WellFormed(g) && IdsAreIndices(g)
    ensures var r := Engine.CallNumbers(g, playerId, numbers, seed); r.Ok? ==> IdsAreIndices(r.value.1)
    ensures var r := Engine.UsePass(g, playerId); r.Ok? ==> IdsAreIndices(r.value.1)
    ensures var r := Engine.UseReverse(g, playerId); r.Ok? ==> IdsAreIndices(r.value.2)
  {
    var r := Engine.CallNumbers(g, playerId, numbers, seed);
    if r.Ok? && g.secret in numbers {
      var marked := MarkCurrentDead(g.(called := g.called + (set n | n in numbers)));
      assert IdsAreIndices(marked);
    }
  }

  /** On a game whose ids are its indices, which every legacy game is, the
      corrected legacy handlers agree exactly with the current engine's, the
      legacy status is the engine's without the game id, and the ids stay
      indices afterwards. */
  lemma LegacyAgreesWithEngine(g: Game, playerId: int, numbers: seq<int>, seed: nat)
    requires WellFormed(g) && IdsAreIndices(g)
    ensures CallNumbersFixed(g, playerId, numbers, seed) == Engine.CallNumbers(g, playerId, numbers, seed)
    ensures UsePass(g, playerId) == Engine.UsePass(g, playerId)
    ensures UseReverse(g, playerId) == Engine.UseReverse(g, playerId)
    ensures GetStatus(g).Err? <==> Engine.GetStatus(g).Err?
    ensures GetStatus(g).Ok? ==> GetStatus(g).value == DropGameId(Engine.GetStatus(g).value)
    ensures var r := CallNumbersFixed(g, playerId, numbers, seed); r.Ok? ==> IdsAreIndices(r.value.1)
  {
    EngineKeepsIds(g, playerId, numbers, seed);
  }

  /** `get_ai_action` of the legacy server: the same decision as the current
      server's, carried out through the legacy handlers under the AI's id. A
      decision to call therefore always ends in the unbound-local failure,
      and only a pass can succeed. */
  function AiTurn(g: Game, coin: bool, pick: nat, seed: nat): (r: Result<Ai.AiOutcome, ApiError>)
    requires WellFormed(g)
    ensures !Current(g).isAi ==> r == Err(NotAiTurn)
    ensures Current(g).isAi && Current(g).id !in g.aiManager ==> r == Err(AiMissing)
    ensures r.Ok? ==> r.value.Passed? && Ai.Decision(g, coin, pick) == Ok(Some(Ai.PassAction))
    ensures Current(g).isAi && Current(g).id in g.aiManager ==>
      var d := Ai.Decision(g, coin, pick);
      d.Ok? && d.value.Some? && d.value.value.CallAction? ==> r == Err(UnboundNumbers)
    ensures IdsAreIndices(g) && r.Ok? ==> Ai.AiTurn(g, coin, pick, seed) == r
  {
    var p := Current(g);
    if !p.isAi then Err(NotAiTurn)
    else if p.id !in g.aiManager then Err(AiMissing)
    else
      match Ai.Decision(g, coin, pick)
      case Err(e) => Err(e)
      case Ok(None) => Err(NoAiAction)
      case Ok(Some(action)) =>
        match action
        case CallAction(ns) =>
          (match CallNumbers(g, p.id, ns, seed)
           case Err(e) => Err(e)
           case Ok((reply, g2)) => Ok(Ai.Called(reply, g2)))
        case PassAction =>
          (match UsePass(g, p.id)
           case Err(e) => Err(e)
           case Ok((next, g2)) => Ok(Ai.Passed(next, g2)))
  }

  // ----- the games table ----------------------------------------------------

  /** What the legacy server keeps true of its table: every game is filed
      under its own id, is consistent, and numbers its players by position. */
  predicate LegacyStoreOk(store: Store)
  {
    forall id :: id in store ==> store[id].gameId == id && Consistent(store[id]) && IdsAreIndices(store[id])
  }

  /** `POST /api/game/start`: the new game is filed under its id. */
  function StartGameAt(store: Store, cs: seq<PlayerConfig>, gameId: string, seed: nat)
    : (r: Result<(Status, Store), ApiError>)
    ensures r.Err? <==> |cs| < 2 || |cs| > 5
    ensures r.Ok? ==> r.value.0.gameId == gameId && r.value.1 == store[gameId := NewGame(cs, gameId, seed)]
  {
    match StartGame(cs, gameId, seed)
    case Err(e) => Err(e)
    case Ok((status, g)) => Ok((status, store[gameId := g]))
  }

  /** `POST /api/game/call` as written: an unknown game is a 404, and on a
      filed game the unbound local fails before anything changes. */
  function CallAt(store: Store, gameId: string, playerId: int, numbers: seq<int>, seed: nat)
    : (r: Result<(CallReply, Store), ApiError>)
    ensures gameId !in store ==> r == Err(GameNotFound)
    ensures gameId in store ==> r == Err(UnboundNumbers)
  {
    match Lookup(store, gameId)
    case Err(e) => Err(e)
    case Ok(g) =>
      match CallNumbers(g, playerId, numbers, seed)
      case Err(e) => Err(e)
      case Ok((reply, g2)) => Ok((reply, store[gameId := g2]))
  }

  /** `POST /api/game/pass`. */
  function PassAt(store: Store, gameId: string, playerId: int): (r: Result<(int, Store), ApiError>)
    requires StoreWellFormed(store)
    ensures gameId !in store ==> r == Err(GameNotFound)
    ensures gameId in store ==>
      var p := UsePass(store[gameId], playerId);
      && (r.Err? <==> p.Err?)
      && (p.Err? ==> r == Err(p.error))
      && (r.Ok? ==>
            && gameId in r.value.1 && p == Ok((r.value.0, r.value.1[gameId]))
            && r.value.1 == store[gameId := r.value.1[gameId]])
  {
    match Lookup(store, gameId)
    case Err(e) => Err(e)
    case Ok(g) =>
      match UsePass(g, playerId)
      case Err(e) => Err(e)
      case Ok((next, g2)) => Ok((next, store[gameId := g2]))
  }

  /** `POST /api/game/reverse`. */
  function ReverseAt(store: Store, gameId: string, playerId: int): (r: Result<(int, int, Store), ApiError>)
    requires StoreWellFormed(store)
    ensures gameId !in store ==> r == Err(GameNotFound)
    ensures gameId in store ==>
      var v := UseReverse(store[gameId], playerId);
      && (r.Err? <==> v.Err?)
      && (v.Err? ==> r == Err(v.error))
      && (r.Ok? ==>
            && gameId in r.value.2 && v == Ok((r.value.0, r.value.1, r.value.2[gameId]))
            && r.value.2 == store[gameId := r.value.2[gameId]])
  {
    match Lookup(store, gameId)
    case Err(e) => Err(e)
    case Ok(g) =>
      match UseReverse(g, playerId)
      case Err(e) => Err(e)
      case Ok((dir, next, g2)) => Ok((dir, next, store[gameId := g2]))
  }

  /** `GET /api/game/status`. */
  function StatusAt(store: Store, gameId: string): (r: Result<LegacyStatus, ApiError>)
    requires StoreWellFormed(store)
    ensures gameId !in store ==> r == Err(GameNotFound)
    ensures gameId in store ==> r == GetStatus(store[gameId])
  {
    match Lookup(store, gameId)
    case Err(e) => Err(e)
    case Ok(g) => GetStatus(g)
  }

  /** `POST /api/game/ai-action`. */
  function AiAt(store: Store, gameId: string, coin: bool, pick: nat, seed: nat)
    : (r: Result<(Ai.AiOutcome, Store), ApiError>)
    requires StoreWellFormed(store)
    ensures gameId !in store ==> r == Err(GameNotFound)
    ensures gameId in store ==>
      var a := AiTurn(store[gameId], coin, pick, seed);
      && (r.Err? <==> a.Err?)
      && (a.Err? ==> r == Err(a.error))
      && (r.Ok? ==> a == Ok(r.value.0) && r.value.1 == store[gameId := r.value.0.game])
  {
    match Lookup(store, gameId)
    case Err(e) => Err(e)
    case Ok(g) =>
      match AiTurn(g, coin, pick, seed)
      case Err(e) => Err(e)
      case Ok(outcome) => Ok((outcome, store[gameId := outcome.game]))
  }

  /** Filing a consistent, index-numbered game under its own id keeps the
      table in shape. */
  lemma FileKeepsLegacyStoreOk(store: Store, gameId: string, g: Game)
    requires LegacyStoreOk(store) && g.gameId == gameId && Consistent(g) && IdsAreIndices(g)
    ensures LegacyStoreOk(store[gameId := g])
  {
  }

  /** Starting a game, a pass and a reverse keep every filed game consistent
      and numbered by position. */
  lemma EndpointsKeepLegacyStoreOk(store: Store, cs: seq<PlayerConfig>, gameId: string,
                                   playerId: int, seed: nat)
    requires LegacyStoreOk(store)
    ensures var r := StartGameAt(store, cs, gameId, seed); r.Ok? ==> LegacyStoreOk(r.value.1)
    ensures var r := PassAt(store, gameId, playerId); r.Ok? ==> LegacyStoreOk(r.value.1)
    ensures var r := ReverseAt(store, gameId, playerId); r.Ok? ==> LegacyStoreOk(r.value.2)
  {
    var s := StartGameAt(store, cs, gameId, seed);
    if s.Ok? {
      FileKeepsLegacyStoreOk(store, gameId, NewGame(cs, gameId, seed));
    }
    var p := PassAt(store, gameId, playerId);
    if p.Ok? {
      var g := store[gameId];
      LegacyAgreesWithEngine(g, playerId, [], seed);
      EngineKeepsIds(g, playerId, [], seed);
      PassKeepsConsistent(g, playerId);
      FileKeepsLegacyStoreOk(store, gameId, p.value.1[gameId]);
    }
    var v := ReverseAt(store, gameId, playerId);
    if v.Ok? {
      var g := store[gameId];
      LegacyAgreesWithEngine(g, playerId, [], seed);
      EngineKeepsIds(g, playerId, [], seed);
      ReverseKeepsConsistent(g, playerId);
      FileKeepsLegacyStoreOk(store, gameId, v.value.2[gameId]);
    }
  }

  /** The AI's pass, the only move of the legacy AI endpoint that succeeds,
      keeps the table in shape too. */
  lemma AiKeepsLegacyStoreOk(store: Store, gameId: string, coin: bool, pick: nat, seed: nat)
    requires LegacyStoreOk(store)
    ensures var r := AiAt(store, gameId, coin, pick, seed); r.Ok? ==> LegacyStoreOk(r.value.1)
  {
    var r := AiAt(store, gameId, coin, pick, seed);
    if r.Ok? {
      var g := store[gameId];
      var id := Current(g).id;
      assert UsePass(g, id) == Ok((r.value.0.next, r.value.0.game));
      LegacyAgreesWithEngine(g, id, [], seed);
      EngineKeepsIds(g, id, [], seed);
      PassKeepsConsistent(g, id);
      FileKeepsLegacyStoreOk(store, gameId, r.value.0.game);
    }
  }
}

=== FILE: rooms.dfy ===
/** The room lobby of the server (backend/main.py): rooms with a capacity, a
    waiting / full / playing status and a host, kept in a registry keyed by a
    six-digit room id. Random room ids, room names and player ids arrive as
    inputs; broadcasts, activity timestamps and the idle-room sweep are not
    modelled. */
module Rooms {
  import opened Types
  import opened Engine

  datatype RoomStatus = Waiting | Playing | Full

  datatype Room = Room(
    roomId: int,
    name: string,
    players: seq<Player>,
    status: RoomStatus,
    gameId: Option<string>,
    maxPlayers: int,
    password: Option<string>,
    hostId: Option<int>)

  type Registry = map<int, Room>

  /** Python truthiness of the optional password: set and non-empty. */
  predicate HasPassword(r: Room)
  {
    r.password.Some? && r.password.value != ""
  }

  /** Some player of `ps` carries id `id`. */
  predicate HasId(ps: seq<Player>, id: int)
  {
    exists k :: 0 <= k < |ps| && ps[k].id == id
  }

  /** The room shape every endpoint keeps: never over capacity, marked full
      only when at capacity, and, while anyone is inside, a host who is one of
      the players. */
  predicate RoomOk(r: Room)
  {
    && |r.players| <= r.maxPlayers
    && (r.status == Full ==> |r.players| == r.maxPlayers)
    && (|r.players| > 0 ==> r.hostId.Some? && HasId(r.players, r.hostId.value))
  }

  predicate RegistryOk(rooms: Registry)
  {
    forall id :: id in rooms ==>
      rooms[id].roomId == id && |rooms[id].players| > 0 && RoomOk(rooms[id])
  }

  /** `Room.add_player`: refused when at capacity or while a game runs;
      otherwise appended, and the room turns full on reaching capacity. */
  function AddPlayer(r: Room, p: Player): (res: Result<Room, ApiError>)
    ensures |r.players| >= r.maxPlayers ==> res == Err(RoomFull)
    ensures |r.players| < r.maxPlayers && r.status == Playing ==> res == Err(GameInProgress)
    ensures res.Ok? <==> |r.players| < r.maxPlayers && r.status != Playing
    ensures res.Ok? ==>
      var r' := res.value;
      && r'.players == r.players + [p]
      && (|r'.players| >= r.maxPlayers ==> r'.status == Full)
      && (|r'.players| < r.maxPlayers ==> r'.status == r.status)
      && r' == r.(players := r'.players, status := r'.status)
  {
    if |r.players| >= r.maxPlayers then Err(RoomFull)
    else if r.status == Playing then Err(GameInProgress)
    else
      var ps := r.players + [p];
      Ok(r.(players := ps, status := if |ps| >= r.maxPlayers then Full else r.status))
  }

  /** An id carried by a later player is carried by the list. */
  lemma HasIdTail(ps: seq<Player>, id: int)
    requires |ps| > 0
    ensures HasId(ps[1..], id) ==> HasId(ps, id)
  {
    if HasId(ps[1..], id) {
      var k :| 0 <= k < |ps[1..]| && ps[1..][k].id == id;
      assert ps[k + 1].id == id;
    }
  }

  /** The players whose id differs from `id`, in order. */
  function WithoutId(ps: seq<Player>, id: int): (r: seq<Player>)
    ensures forall p :: p in r <==> p in ps && p.id != id
    ensures |r| <= |ps|
    ensures !HasId(ps, id) ==> r == ps
  {
    if |ps| == 0 then []
    else
      var rest := WithoutId(ps[1..], id);
      HasIdTail(ps, id);
      assert ps == [ps[0]] + ps[1..];
      if ps[0].id == id then rest else [ps[0]] + rest
  }

  /** Every player who stays is kept as often as listed. */
  lemma {:induction false} WithoutIdKeepsCounts(ps: seq<Player>, id: int, p: Player)
    requires p.id != id
    ensures multiset(WithoutId(ps, id))[p] == multiset(ps)[p]
    decreases |ps|
  {
    if |ps| > 0 {
      assert ps == [ps[0]] + ps[1..];
      WithoutIdKeepsCounts(ps[1..], id, p);
    }
  }

  /** The filter distributes over concatenation, so the players who stay
      keep their order. */
  lemma {:induction false} WithoutIdConcat(a: seq<Player>, b: seq<Player>, id: int)
    ensures WithoutId(a + b, id) == WithoutId(a, id) + WithoutId(b, id)
    decreases |a|
  {
    if |a| > 0 {
      var ab := a + b;
      assert ab[0] == a[0] && ab[1..] == a[1..] + b;
      WithoutIdConcat(a[1..], b, id);
      assert WithoutId(ab, id) == (if a[0].id == id then [] else [a[0]]) + WithoutId(a[1..] + b, id);
      assert WithoutId(a, id) == (if a[0].id == id then [] else [a[0]]) + WithoutId(a[1..], id);
    } else {
      assert a + b == b;
    }
  }

  /** `Room.remove_player`: every player with that id leaves; a full room
      with space again waits; a departing host hands over to the first
      remaining player. */
  function RemovePlayer(r: Room, id: int): (r': Room)
    ensures forall p :: p in r'.players <==> p in r.players && p.id != id
    ensures r.status == Full && |r'.players| < r.maxPlayers ==> r'.status == Waiting
    ensures !(r.status == Full && |r'.players| < r.maxPlayers) ==> r'.status == r.status
    ensures r.hostId == Some(id) && |r'.players| > 0 ==> r'.hostId == Some(r'.players[0].id)
    ensures !(r.hostId == Some(id) && |r'.players| > 0) ==> r'.hostId == r.hostId
    ensures r' == r.(players := r'.players, status := r'.status, hostId := r'.hostId)
  {
    var ps := WithoutId(r.players, id);
    var status := if r.status == Full && |ps| < r.maxPlayers then Waiting else r.status;
    var host := if r.hostId == Some(id) && |ps| > 0 then Some(ps[0].id) else r.hostId;
    r.(players := ps, status := status, hostId := host)
  }

  /** Adding to an occupied room keeps the room invariant, and the room is
      full after the addition exactly when it reached capacity. */
  lemma AddPlayerKeepsRoomOk(r: Room, p: Player)
    requires RoomOk(r) && |r.players| > 0
    requires AddPlayer(r, p).Ok?
    ensures RoomOk(AddPlayer(r, p).value)
    ensures AddPlayer(r, p).value.status == Full <==> |AddPlayer(r, p).value.players| == r.maxPlayers
  {
    var r' := AddPlayer(r, p).value;
    var k :| 0 <= k < |r.players| && r.players[k].id == r.hostId.value;
    assert r'.players[k] == r.players[k];
  }

  /** Removing keeps the room invariant: the host is handed over when the
      host leaves, and otherwise stays among the players. */
  lemma RemovePlayerKeepsRoomOk(r: Room, id: int)
    requires RoomOk(r)
    ensures RoomOk(RemovePlayer(r, id))
  {
    var r' := RemovePlayer(r, id);
    if |r'.players| > 0 && r.hostId != Some(id) {
      var k :| 0 <= k < |r.players| && r.players[k].id == r.hostId.value;
      assert r.players[k] in r'.players;
      var j :| 0 <= j < |r'.players| && r'.players[j] == r.players[k];
    }
  }

  /** `create_room` with its random room id already drawn: the loop of the
      source only ends on an id not in use. A capacity outside 2..10 is
      refused and nothing is registered. */
  function CreateRoom(rooms: Registry, roomId: int, name: string, maxPlayers: int,
                      password: Option<string>, playerName: string, playerId: int)
    : (res: Result<(Registry, Room, Player), ApiError>)
    requires roomId !in rooms && 100000 <= roomId <= 999999
    ensures res.Err? <==> maxPlayers < 2 || maxPlayers > 10
    ensures res.Err? ==> res.error == BadMaxPlayers
    ensures res.Ok? ==>
      var (rooms', room, host) := res.value;
      && rooms' == rooms[roomId := room]
      && room.players == [host] && room.hostId == Some(host.id) && room.status == Waiting
      && room.maxPlayers == maxPlayers && room.password == password && room.gameId.None?
      && host == Player(playerId, playerName, false, true, true, true)
      && RoomOk(room)
  {
    if maxPlayers < 2 || maxPlayers > 10 then Err(BadMaxPlayers)
    else
      var host := Player(playerId, playerName, false, true, true, true);
      var empty := Room(roomId, name, [], Waiting, None, maxPlayers, password, None);
      match AddPlayer(empty, host)
      case Err(e) => Err(e)
      case Ok(room) =>
        assert room.players[0] == host;
        var room' := room.(hostId := Some(host.id));
        Ok((rooms[roomId := room'], room', host))
  }

  /** `join_room`: unknown rooms are refused; a human must match a set
      password (an AI skips the check); then the capacity and status checks
      of `add_player` apply. */
  function JoinRoom(rooms: Registry, roomId: int, playerName: string, isAi: bool,
                    password: Option<string>, playerId: int)
    : (res: Result<(Registry, Player), ApiError>)
    ensures roomId !in rooms ==> res == Err(RoomNotFound)
    ensures roomId in rooms && HasPassword(rooms[roomId]) && !isAi && password != rooms[roomId].password
      ==> res == Err(WrongPassword)
    ensures res.Ok? ==>
      var (rooms', p) := res.value;
      && roomId in rooms
      && (isAi || !HasPassword(rooms[roomId]) || password == rooms[roomId].password)
      && p == Player(playerId, playerName, isAi, true, true, true)
      && AddPlayer(rooms[roomId], p).Ok?
      && rooms' == rooms[roomId := AddPlayer(rooms[roomId], p).value]
    ensures roomId in rooms && (isAi || !HasPassword(rooms[roomId]) || password == rooms[roomId].password) ==>
      var a := AddPlayer(rooms[roomId], Player(playerId, playerName, isAi, true, true, true));
      && (res.Ok? <==> a.Ok?)
      && (a.Err? ==> res == Err(a.error))
  {
    if roomId !in rooms then Err(RoomNotFound)
    else
      var room := rooms[roomId];
      if HasPassword(room) && !isAi && password != room.password then Err(WrongPassword)
      else
        var p := Player(playerId, playerName, isAi, true, true, true);
        match AddPlayer(room, p)
        case Err(e) => Err(e)
        case Ok(room') => Ok((rooms[roomId := room'], p))
  }

  datatype LeaveReply = RoomDeleted | RoomUpdated(room: Room)

  /** `leave_room_action`: the player leaves; a room left empty is deleted. */
  function LeaveRoom(rooms: Registry, roomId: int, playerId: int)
    : (res: Result<(Registry, LeaveReply), ApiError>)
    ensures roomId !in rooms <==> res == Err(RoomNotFound)
    ensures res.Ok? <==> roomId in rooms
    ensures res.Ok? ==>
      var (rooms', reply) := res.value;
      var room' := RemovePlayer(rooms[roomId], playerId);
      && (reply == RoomDeleted <==> |room'.players| == 0)
      && (reply == RoomDeleted ==> rooms' == map id | id in rooms && id != roomId :: rooms[id])
      && (reply.RoomUpdated? ==> reply.room == room' && rooms' == rooms[roomId := room'])
  {
    if roomId !in rooms then Err(RoomNotFound)
    else
      var room' := RemovePlayer(rooms[roomId], playerId);
      if |room'.players| == 0 then Ok((rooms - {roomId}, RoomDeleted))
      else Ok((rooms[roomId := room'], RoomUpdated(room')))
  }

  /** The start request built from the room's players: their own ids, the
      AI flag, and difficulty "medium". */
  function RoomConfigs(ps: seq<Player>): (cs: seq<PlayerConfig>)
    ensures |cs| == |ps|
    ensures forall i :: 0 <= i < |ps| ==>
      && cs[i].id == Some(ps[i].id) && IdOf(cs[i], i) == ps[i].id
      && cs[i].name == ps[i].name && cs[i].isAi == ps[i].isAi
      && cs[i].difficulty == Some("medium")
  {
    seq(|ps|, i requires 0 <= i < |ps| => PlayerConfig(Some(ps[i].id), ps[i].name, ps[i].isAi, Some("medium")))
  }

  /** The AI table of a room's game is keyed by the ids of the room's AI
      players. */
  lemma RoomAiTable(ps: seq<Player>, gameId: string, seed: nat)
    ensures NewGame(RoomConfigs(ps), gameId, seed).aiManager.Keys == (set p | p in ps && p.isAi :: p.id)
  {
    var cs := RoomConfigs(ps);
    var g := NewGame(cs, gameId, seed);
    forall id | id in g.aiManager.Keys
      ensures id in (set p | p in ps && p.isAi :: p.id)
    {
      var i :| 0 <= i < |cs| && cs[i].isAi && IdOf(cs[i], i) == id;
      assert ps[i] in ps && ps[i].isAi && ps[i].id == id;
    }
    forall id | id in (set p | p in ps && p.isAi :: p.id)
      ensures id in g.aiManager.Keys
    {
      var p :| p in ps && p.isAi && p.id == id;
      var i :| 0 <= i < |ps| && ps[i] == p;
      assert cs[i].isAi && IdOf(cs[i], i) == id;
    }
  }

  /** `start_room_game`: two or more players are needed; the new game keeps
      the room's players and ids in order, and the room turns to playing. */
  function StartRoomGame(rooms: Registry, roomId: int, gameId: string, seed: nat)
    : (res: Result<(Registry, Game), ApiError>)
    ensures roomId !in rooms ==> res == Err(RoomNotFound)
    ensures roomId in rooms && |rooms[roomId].players| < 2 ==> res == Err(NotEnoughPlayers)
    ensures res.Ok? <==> roomId in rooms && |rooms[roomId].players| >= 2
    ensures res.Ok? ==>
      var (rooms', g) := res.value;
      var room := rooms[roomId];
      && WellFormed(g)
      && |g.players| == |room.players|
      && (forall i :: 0 <= i < |g.players| ==>
            g.players[i] == Player(room.players[i].id, room.players[i].name, room.players[i].isAi, true, true, true))
      && g.aiManager.Keys == (set p | p in room.players && p.isAi :: p.id)
      && g.gameId == gameId
      && rooms' == rooms[roomId := room.(status := Playing, gameId := Some(gameId))]
    ensures res.Ok? ==> res.value.1 == NewGame(RoomConfigs(rooms[roomId].players), gameId, seed)
  {
    if roomId !in rooms then Err(RoomNotFound)
    else
      var room := rooms[roomId];
      if |room.players| < 2 then Err(NotEnoughPlayers)
      else
        var g := NewGame(RoomConfigs(room.players), gameId, seed);
        RoomAiTable(room.players, gameId, seed);
        Ok((rooms[roomId := room.(status := Playing, gameId := Some(gameId))], g))
  }

  /** `reset_room_status`, run when a game ends: the room that hosted the
      game waits again and forgets the game. */
  function ResetRoomStatus(rooms: Registry, gameId: string): (rooms': Registry)
    ensures rooms'.Keys == rooms.Keys
    ensures forall id :: id in rooms && rooms[id].gameId == Some(gameId) ==>
      rooms'[id] == rooms[id].(status := Waiting, gameId := None)
    ensures forall id :: id in rooms && rooms[id].gameId != Some(gameId) ==> rooms'[id] == rooms[id]
  {
    map id | id in rooms :: if rooms[id].gameId == Some(gameId) then rooms[id].(status := Waiting, gameId := None) else rooms[id]
  }

  /** Every endpoint keeps every registered room well shaped. */
  lemma EndpointsKeepRegistryOk(rooms: Registry, roomId: int, name: string, maxPlayers: int,
                                password: Option<string>, playerName: string, isAi: bool,
                                playerId: int, gameId: string, seed: nat)
    requires RegistryOk(rooms)
    ensures roomId !in rooms && 100000 <= roomId <= 999999 ==>
      var res := CreateRoom(rooms, roomId, name, maxPlayers, password, playerName, playerId);
      res.Ok? ==> RegistryOk(res.value.0)
    ensures var res := JoinRoom(rooms, roomId, playerName, isAi, password, playerId);
      res.Ok? ==> RegistryOk(res.value.0)
    ensures var res := LeaveRoom(rooms, roomId, playerId);
      res.Ok? ==> RegistryOk(res.value.0)
    ensures var res := StartRoomGame(rooms, roomId, gameId, seed);
      res.Ok? ==> RegistryOk(res.value.0)
    ensures RegistryOk(ResetRoomStatus(rooms, gameId))
  {
    if roomId in rooms {
      var room := rooms[roomId];
      var p := Player(playerId, playerName, isAi, true, true, true);
      if AddPlayer(room, p).Ok? {
        AddPlayerKeepsRoomOk(room, p);
      }
      RemovePlayerKeepsRoomOk(room, playerId);
    }
  }

  /** After its game ends, a room with space left accepts new players again. */
  lemma ResetRoomAcceptsPlayers(rooms: Registry, gameId: string, roomId: int, p: Player)
    requires roomId in rooms && rooms[roomId].gameId == Some(gameId)
    requires |rooms[roomId].players| < rooms[roomId].maxPlayers
    ensures AddPlayer(ResetRoomStatus(rooms, gameId)[roomId], p).Ok?
  {
  }
}

=== FILE: rotation.dfy ===
/** Turn rotation of the server engine (`next_player` in backend/main.py):
    moving one seat at a time in the game's direction around the table visits
    every seat within one lap, so the loop always stops on the first alive
    player after the current one. */
module Rotation {
  import opened Types
  import opened Engine

  lemma ModSmall(x: int, n: int)
    requires 0 <= x < n
    ensures x % n == x
  {
  }

  lemma ModWrapUp(x: int, n: int)
    requires n <= x < 2 * n
    ensures x % n == x - n
  {
  }

  lemma ModWrapDown(x: int, n: int)
    requires -n <= x < 0
    ensures x % n == x + n
  {
  }

  /** Moving forward `k <= n` seats from `i` wraps past the end at most once. */
  lemma {:induction false} StepForward(i: int, n: nat, k: nat)
    requires 0 <= i < n && k <= n
    ensures Step(i, 1, n, k) == if i + k < n then i + k else i + k - n
  {
    if k > 0 {
      StepForward(i, n, k - 1);
      var prev := Step(i, 1, n, k - 1);
      assert Step(i, 1, n, k) == (prev + 1) % n;
      if prev + 1 < n {
        ModSmall(prev + 1, n);
      } else {
        ModWrapUp(prev + 1, n);
      }
    }
  }

  /** Moving backward `k <= n` seats from `i` wraps past the start at most once. */
  lemma {:induction false} StepBackward(i: int, n: nat, k: nat)
    requires 0 <= i < n && k <= n
    ensures Step(i, -1, n, k) == if k <= i then i - k else i - k + n
  {
    if k > 0 {
      StepBackward(i, n, k - 1);
      var prev := Step(i, -1, n, k - 1);
      assert Step(i, -1, n, k) == (prev - 1) % n;
      if prev - 1 < 0 {
        ModWrapDown(prev - 1, n);
      } else {
        ModSmall(prev - 1, n);
      }
    }
  }

  /** Every seat is reached within one lap; the starting seat only after the
      full lap. */
  lemma StepReaches(i: int, d: int, n: nat, t: int) returns (k: nat)
    requires 0 <= i < n && 0 <= t < n
    requires d == 1 || d == -1
    ensures 1 <= k <= n
    ensures Step(i, d, n, k) == t
    ensures k == n <==> t == i
  {
    if d == 1 {
      k := if t > i then t - i else t - i + n;
      StepForward(i, n, k);
    } else {
      k := if t < i then i - t else i - t + n;
      StepBackward(i, n, k);
    }
  }

  /** The loop of `next_player`, entered after `steps` moves, stops at the
      first later move that lands on an alive player. */
  lemma {:induction false} SeekStopsAtFirstAlive(ps: seq<Player>, i0: int, d: int, steps: nat, k: nat)
    requires 0 <= i0 < |ps|
    requires steps < k <= |ps|
    requires ps[Step(i0, d, |ps|, k)].isAlive
    requires forall j :: steps < j < k ==> !ps[Step(i0, d, |ps|, j)].isAlive
    ensures Seek(ps, Step(i0, d, |ps|, steps), d, steps) == Step(i0, d, |ps|, k)
    decreases k - steps
  {
    var n := |ps|;
    assert Step(i0, d, n, steps + 1) == (Step(i0, d, n, steps) + d) % n;
    if k > steps + 1 {
      SeekStopsAtFirstAlive(ps, i0, d, steps + 1, k);
    }
  }

  /** If some move within the first `kt` lands on an alive player, a first
      such move exists. */
  lemma {:induction false} FirstAliveMove(ps: seq<Player>, i0: int, d: int, kt: nat) returns (k: nat)
    requires 0 <= i0 < |ps|
    requires 1 <= kt <= |ps|
    requires ps[Step(i0, d, |ps|, kt)].isAlive
    ensures 1 <= k <= kt
    ensures ps[Step(i0, d, |ps|, k)].isAlive
    ensures forall j :: 1 <= j < k ==> !ps[Step(i0, d, |ps|, j)].isAlive
    decreases kt
  {
    if j :| 1 <= j < kt && ps[Step(i0, d, |ps|, j)].isAlive {
      k := FirstAliveMove(ps, i0, d, j);
    } else {
      k := kt;
    }
  }

  /** With every other seat dead, at most one player is alive. */
  lemma {:induction false} OthersDead(ps: seq<Player>, i: int)
    requires 0 <= i < |ps|
    requires forall t :: 0 <= t < |ps| && t != i ==> !ps[t].isAlive
    ensures CountAlive(ps) <= 1
    decreases |ps|
  {
    if i == 0 {
      assert FirstAliveIndex(ps[1..]).None?;
    } else {
      OthersDead(ps[1..], i - 1);
    }
  }

  /** The turn moved from seat `i` to the first alive seat met walking `d`
      around the table of `ps`. */
  predicate HandedOver(ps: seq<Player>, i: int, d: int, i': int)
    requires 0 <= i < |ps|
  {
    && 0 <= i' < |ps| && i' != i && ps[i'].isAlive
    && exists k :: 1 <= k < |ps| && i' == Step(i, d, |ps|, k)
         && forall j :: 1 <= j < k ==> !ps[Step(i, d, |ps|, j)].isAlive
  }

  /** `next_player` with two or more players alive moves the turn to another
      player, the first alive one met walking in the game's direction. */
  lemma NextPlayerMovesToFirstAlive(g: Game)
    requires WellFormed(g)
    requires CountAlive(g.players) >= 2
    ensures var g' := NextPlayer(g); var n := |g.players|;
      && Current(g').isAlive
      && g'.currentIndex != g.currentIndex
      && exists k :: 1 <= k < n
           && g'.currentIndex == Step(g.currentIndex, g.direction, n, k)
           && forall j :: 1 <= j < k ==> !g.players[Step(g.currentIndex, g.direction, n, j)].isAlive
    ensures HandedOver(g.players, g.currentIndex, g.direction, NextPlayer(g).currentIndex)
  {
    var ps, i, d, n := g.players, g.currentIndex, g.direction, |g.players|;
    var t :| 0 <= t < n && t != i && ps[t].isAlive by {
      if forall t :: 0 <= t < n && t != i ==> !ps[t].isAlive {
        OthersDead(ps, i);
        assert false;
      }
    }
    var kt := StepReaches(i, d, n, t);
    var k := FirstAliveMove(ps, i, d, kt);
    SeekStopsAtFirstAlive(ps, i, d, 0, k);
    StepInjective(i, d, n, k);
  }

  /** Within one lap, only the full lap returns to the starting seat. */
  lemma StepInjective(i: int, d: int, n: nat, k: nat)
    requires 0 <= i < n && 1 <= k < n
    requires d == 1 || d == -1
    ensures Step(i, d, n, k) != i
  {
    if d == 1 {
      StepForward(i, n, k);
    } else {
      StepBackward(i, n, k);
    }
  }
}

=== FILE: seqs.dfy ===
/** Sequence facts shared by the server's call validation and the client's
    selection rule: ordering, "consecutive" runs, the numeric sort both sides
    apply (Python `sorted`, JavaScript `sort((a, b) => a - b)`), filtering and
    decimal rendering. */
module Seqs {

  /** Non-decreasing. */
  predicate Ascending(s: seq<int>)
  {
    forall i, j :: 0 <= i < j < |s| ==> s[i] <= s[j]
  }

  /** Strictly increasing, hence free of duplicates. */
  predicate Increasing(s: seq<int>)
  {
    forall i, j :: 0 <= i < j < |s| ==> s[i] < s[j]
  }

  /** Each element is exactly one more than its predecessor: the check both
      the server and the client run over a sorted call. */
  predicate Consecutive(s: seq<int>)
  {
    forall i :: 0 < i < |s| ==> s[i] == s[i - 1] + 1
  }

  /** Insertion of `x` into an ascending sequence. */
  function Insert(x: int, s: seq<int>): (r: seq<int>)
    requires Ascending(s)
    ensures Ascending(r)
    ensures multiset(r) == multiset(s) + multiset{x}
    ensures |r| == |s| + 1
  {
    if |s| == 0 then [x]
    else if x <= s[0] then [x] + s
    else
      var t := Insert(x, s[1..]);
      assert s == [s[0]] + s[1..];
      BoundedByMultiset(t, s[1..], x, s[0]);
      [s[0]] + t
  }

  /** Every element of `t` comes from `u` or is `x`, so a common lower bound of
      those bounds `t`. */
  lemma BoundedByMultiset(t: seq<int>, u: seq<int>, x: int, b: int)
    requires multiset(t) == multiset(u) + multiset{x}
    requires b <= x
    requires forall k :: 0 <= k < |u| ==> b <= u[k]
    ensures forall k :: 0 <= k < |t| ==> b <= t[k]
  {
    forall k | 0 <= k < |t|
      ensures b <= t[k]
    {
      assert t[k] in multiset(t);
      if t[k] != x {
        assert t[k] in multiset(u);
        assert t[k] in u;
      }
    }
  }

  /** The numeric ascending sort: an ascending permutation of its input. */
  function Sort(s: seq<int>): (r: seq<int>)
    ensures Ascending(r)
    ensures multiset(r) == multiset(s)
    ensures |r| == |s|
  {
    if |s| == 0 then []
    else
      assert s == [s[0]] + s[1..];
      Insert(s[0], Sort(s[1..]))
  }

  /** The head of an ascending sequence is at most any of its elements. */
  lemma AscendingHeadIsLeast(s: seq<int>, x: int)
    requires Ascending(s) && x in multiset(s)
    ensures |s| > 0 && s[0] <= x
  {
    assert x in s;
    var i :| 0 <= i < |s| && s[i] == x;
    assert i == 0 || s[0] <= s[i];
  }

  /** Taking off the head of a sequence takes one copy off its multiset. */
  lemma TailMultiset(s: seq<int>)
    requires |s| > 0
    ensures multiset(s[1..]) == multiset(s) - multiset{s[0]}
  {
    assert s == [s[0]] + s[1..];
    assert multiset(s) == multiset{s[0]} + multiset(s[1..]);
  }

  /** The tail of an ascending sequence is ascending. */
  lemma AscendingTail(s: seq<int>)
    requires Ascending(s) && |s| > 0
    ensures Ascending(s[1..])
  {
  }

  /** Two ascending sequences with the same elements are equal: the sorted
      order of a collection is unique. */
  lemma {:induction false} AscendingUnique(a: seq<int>, b: seq<int>)
    requires Ascending(a) && Ascending(b)
    requires multiset(a) == multiset(b)
    ensures a == b
    decreases |a|
  {
    if |a| == 0 {
      assert |b| == |multiset(b)| == 0;
    } else {
      assert a[0] in multiset(a);
      AscendingHeadIsLeast(b, a[0]);
      AscendingHeadIsLeast(a, b[0]);
      assert a[0] == b[0];
      TailMultiset(a);
      TailMultiset(b);
      AscendingTail(a);
      AscendingTail(b);
      AscendingUnique(a[1..], b[1..]);
      assert a == [a[0]] + a[1..] && b == [b[0]] + b[1..];
    }
  }

  /** Sorting a sequence that is already ascending returns it unchanged. */
  lemma SortKeepsAscending(s: seq<int>)
    requires Ascending(s)
    ensures Sort(s) == s
  {
    AscendingUnique(Sort(s), s);
  }

  /** A consecutive run is strictly increasing, element j lying j - i above
      element i. */
  lemma {:induction false} ConsecutiveOffsets(s: seq<int>)
    requires Consecutive(s)
    ensures forall i, j :: 0 <= i <= j < |s| ==> s[j] == s[i] + (j - i)
    ensures Increasing(s)
    decreases |s|
  {
    if |s| > 1 {
      var t := s[..|s| - 1];
      assert Consecutive(t);
      ConsecutiveOffsets(t);
      forall i, j | 0 <= i <= j < |s|
        ensures s[j] == s[i] + (j - i)
      {
        if j == |s| - 1 && i < j {
          assert t[i] == s[i] && t[j - 1] == s[j - 1];
        }
      }
    }
  }

  /** The elements of `s` other than `x`, in their original order
      (JavaScript `s.filter(n => n !== x)`, Python `[p for p in s if ...]`). */
  function RemoveAll(s: seq<int>, x: int): (r: seq<int>)
    ensures x !in r
    ensures forall y :: y in r <==> y in s && y != x
    ensures forall y :: y != x ==> multiset(r)[y] == multiset(s)[y]
    ensures |r| <= |s|
  {
    if |s| == 0 then []
    else
      assert s == [s[0]] + s[1..];
      if s[0] == x then RemoveAll(s[1..], x)
      else [s[0]] + RemoveAll(s[1..], x)
  }

  /** Filtering distributes over concatenation: each part keeps its kept
      elements, in order, and the parts stay in order. */
  lemma {:induction false} RemoveAllConcat(a: seq<int>, b: seq<int>, x: int)
    ensures RemoveAll(a + b, x) == RemoveAll(a, x) + RemoveAll(b, x)
    decreases |a|
  {
    if |a| > 0 {
      assert (a + b)[1..] == a[1..] + b;
      RemoveAllConcat(a[1..], b, x);
    } else {
      assert a + b == b;
    }
  }

  /** Filtering out an element that occurs once removes exactly that position
      and keeps every other element, in order. */
  lemma {:induction false} RemoveSingle(s: seq<int>, k: int)
    requires 0 <= k < |s|
    requires forall i :: 0 <= i < |s| && i != k ==> s[i] != s[k]
    ensures RemoveAll(s, s[k]) == s[..k] + s[k + 1..]
    decreases |s|
  {
    if k == 0 {
      NotInRemoveNothing(s[1..], s[0]);
    } else {
      assert s[1..][k - 1] == s[k];
      RemoveSingle(s[1..], k - 1);
      assert s[..k] == [s[0]] + s[1..][..k - 1];
      assert s[k + 1..] == s[1..][k..];
    }
  }

  /** Filtering out an absent element is the identity. */
  lemma {:induction false} NotInRemoveNothing(s: seq<int>, x: int)
    requires x !in s
    ensures RemoveAll(s, x) == s
    decreases |s|
  {
    if |s| > 0 {
      assert s == [s[0]] + s[1..];
      NotInRemoveNothing(s[1..], x);
    }
  }

  /** Filtering keeps an ascending sequence ascending. */
  lemma {:induction false} RemoveKeepsIncreasing(s: seq<int>, x: int)
    requires Increasing(s)
    ensures Increasing(RemoveAll(s, x))
    decreases |s|
  {
    if |s| > 0 {
      RemoveKeepsIncreasing(s[1..], x);
      var t := RemoveAll(s[1..], x);
      forall k | 0 <= k < |t|
        ensures s[0] < t[k]
      {
        assert t[k] in t;
        assert t[k] in s[1..];
      }
    }
  }

  /** Decimal rendering of an integer, as a JavaScript template literal writes it. */
  function DecimalString(n: int): string
    decreases if n < 0 then 1 - n else n
  {
    if n < 0 then "-" + DecimalString(-n)
    else if n < 10 then [(48 + n) as char]
    else DecimalString(n / 10) + [(48 + n % 10) as char]
  }
}

=== FILE: server.dfy ===
/** The game endpoints of the current server (backend/main.py) on top of the
    `games` table and the room registry: every endpoint first looks the game
    up and answers 404 for an unknown id, then runs the engine and files the
    game it returns back under the same id. A call that ends the game also
    runs `reset_room_status`, so the room that hosted the game waits again. */
module Server {
  import opened Types
  import opened Engine
  import opened GameInvariants
  import opened Rooms
  import Ai

  /** What the server keeps true of its table: every game is filed under its
      own id and is consistent. */
  predicate StoreOk(store: Store)
  {
    forall id :: id in store ==> store[id].gameId == id && Consistent(store[id])
  }

  lemma StoreOkWellFormed(store: Store)
    requires StoreOk(store)
    ensures StoreWellFormed(store)
  {
  }

  /** Whether a call reply reports the end of the game. */
  predicate EndsGame(reply: CallReply)
  {
    reply.Hit? && reply.gameOver
  }

  /** The rooms after a call on the game filed as `g`: reset when the call
      ended the game, untouched otherwise. */
  function RoomsAfter(rooms: Registry, g: Game, reply: CallReply): (rooms': Registry)
    ensures !EndsGame(reply) ==> rooms' == rooms
    ensures EndsGame(reply) ==> rooms' == ResetRoomStatus(rooms, g.gameId)
  {
    if EndsGame(reply) then ResetRoomStatus(rooms, g.gameId) else rooms
  }

  /** `POST /api/game/start`: the new game is filed under its id. */
  function StartGameAt(store: Store, cs: seq<PlayerConfig>, gameId: string, seed: nat)
    : (r: Result<(Status, Store), ApiError>)
    ensures r.Err? <==> |cs| < 2 || |cs| > 5
    ensures r.Err? ==> r.error == BadPlayerCount
    ensures r.Ok? ==>
      && r.value.0.gameId == gameId
      && r.value.1 == store[gameId := NewGame(cs, gameId, seed)]
  {
    match StartGame(cs, gameId, seed)
    case Err(e) => Err(e)
    case Ok((status, g)) => Ok((status, store[gameId := g]))
  }

  /** `POST /api/rooms/{room_id}/start`: the room's game is filed under its
      id and the room turns to playing. */
  function StartRoomAt(store: Store, rooms: Registry, roomId: int, gameId: string, seed: nat)
    : (r: Result<(Store, Registry), ApiError>)
    ensures r.Err? <==> roomId !in rooms || |rooms[roomId].players| < 2
    ensures r.Ok? ==>
      var (store', rooms') := r.value;
      && gameId in store' && store' == store[gameId := store'[gameId]]
      && StartRoomGame(rooms, roomId, gameId, seed) == Ok((rooms', store'[gameId]))
  {
    match StartRoomGame(rooms, roomId, gameId, seed)
    case Err(e) => Err(e)
    case Ok((rooms', g)) => Ok((store[gameId := g], rooms'))
  }

  /** `POST /api/game/call`. */
  function Call(store: Store, rooms: Registry, gameId: string, playerId: int, numbers: seq<int>, seed: nat)
    : (r: Result<(CallReply, Store, Registry), ApiError>)
    requires StoreWellFormed(store)
    ensures gameId !in store ==> r == Err(GameNotFound)
    ensures gameId in store ==>
      var c := CallNumbers(store[gameId], playerId, numbers, seed);
      && (r.Err? <==> c.Err?)
      && (c.Err? ==> r == Err(c.error))
      && (r.Ok? ==>
            var (reply, store', rooms') := r.value;
            && gameId in store' && c == Ok((reply, store'[gameId]))
            && store' == store[gameId := store'[gameId]]
            && rooms' == RoomsAfter(rooms, store[gameId], reply))
  {
    match Lookup(store, gameId)
    case Err(e) => Err(e)
    case Ok(g) =>
      match CallNumbers(g, playerId, numbers, seed)
      case Err(e) => Err(e)
      case Ok((reply, g2)) => Ok((reply, store[gameId := g2], RoomsAfter(rooms, g, reply)))
  }

  /** `POST /api/game/pass`. */
  function Pass(store: Store, gameId: string, playerId: int): (r: Result<(int, Store), ApiError>)
    requires StoreWellFormed(store)
    ensures gameId !in store ==> r == Err(GameNotFound)
    ensures gameId in store ==>
      var p := UsePass(store[gameId], playerId);
      && (r.Err? <==> p.Err?)
      && (p.Err? ==> r == Err(p.error))
      && (r.Ok? ==>
            && gameId in r.value.1 && p == Ok((r.value.0, r.value.1[gameId]))
            && r.value.1 == store[gameId := r.value.1[gameId]])
  {
    match Lookup(store, gameId)
    case Err(e) => Err(e)
    case Ok(g) =>
      match UsePass(g, playerId)
      case Err(e) => Err(e)
      case Ok((next, g2)) => Ok((next, store[gameId := g2]))
  }

  /** `POST /api/game/reverse`. */
  function Reverse(store: Store, gameId: string, playerId: int): (r: Result<(int, int, Store), ApiError>)
    requires StoreWellFormed(store)
    ensures gameId !in store ==> r == Err(GameNotFound)
    ensures gameId in store ==>
      var v := UseReverse(store[gameId], playerId);
      && (r.Err? <==> v.Err?)
      && (v.Err? ==> r == Err(v.error))
      && (r.Ok? ==>
            && gameId in r.value.2 && v == Ok((r.value.0, r.value.1, r.value.2[gameId]))
            && r.value.2 == store[gameId := r.value.2[gameId]])
  {
    match Lookup(store, gameId)
    case Err(e) => Err(e)
    case Ok(g) =>
      match UseReverse(g, playerId)
      case Err(e) => Err(e)
      case Ok((dir, next, g2)) => Ok((dir, next, store[gameId := g2]))
  }

  /** `GET /api/game/status`. */
  function StatusOf(store: Store, gameId: string): (r: Result<Status, ApiError>)
    requires StoreWellFormed(store)
    ensures gameId !in store ==> r == Err(GameNotFound)
    ensures gameId in store ==> r == GetStatus(store[gameId])
  {
    match Lookup(store, gameId)
    case Err(e) => Err(e)
    case Ok(g) => GetStatus(g)
  }

  /** `POST /api/game/ai-action`: the AI's move goes through the call or pass
      endpoint, so an AI call that ends the game resets the room too. */
  function AiAction(store: Store, rooms: Registry, gameId: string, coin: bool, pick: nat, seed: nat)
    : (r: Result<(Ai.AiOutcome, Store, Registry), ApiError>)
    requires StoreWellFormed(store)
    ensures gameId !in store ==> r == Err(GameNotFound)
    ensures gameId in store ==>
      var a := Ai.AiTurn(store[gameId], coin, pick, seed);
      && (r.Err? <==> a.Err?)
      && (a.Err? ==> r == Err(a.error))
      && (r.Ok? ==>
            var (outcome, store', rooms') := r.value;
            && a == Ok(outcome)
            && store' == store[gameId := outcome.game]
            && (outcome.Passed? ==> rooms' == rooms)
            && (outcome.Called? ==> rooms' == RoomsAfter(rooms, store[gameId], outcome.reply)))
  {
    match Lookup(store, gameId)
    case Err(e) => Err(e)
    case Ok(g) =>
      match Ai.AiTurn(g, coin, pick, seed)
      case Err(e) => Err(e)
      case Ok(outcome) =>
        var rooms' := match outcome
          case Called(reply, _) => RoomsAfter(rooms, g, reply)
          case Passed(_, _) => rooms;
        Ok((outcome, store[gameId := outcome.game], rooms'))
  }

  // ----- what the endpoints keep --------------------------------------------

  /** Filing a consistent game under its own id keeps the table in shape. */
  lemma FileKeepsStoreOk(store: Store, gameId: string, g: Game)
    requires StoreOk(store) && g.gameId == gameId && Consistent(g)
    ensures StoreOk(store[gameId := g])
  {
  }

  /** Both ways of starting a game file a consistent game under its id. */
  lemma StartsKeepStoreOk(store: Store, rooms: Registry, cs: seq<PlayerConfig>, roomId: int,
                          gameId: string, seed: nat)
    requires StoreOk(store)
    ensures StartGameAt(store, cs, gameId, seed).Ok? ==> StoreOk(StartGameAt(store, cs, gameId, seed).value.1)
    ensures StartRoomAt(store, rooms, roomId, gameId, seed).Ok? ==>
      StoreOk(StartRoomAt(store, rooms, roomId, gameId, seed).value.0)
  {
    if |cs| >= 2 {
      NewGameIsConsistent(cs, gameId, seed);
    }
    if roomId in rooms && |rooms[roomId].players| >= 2 {
      NewGameIsConsistent(RoomConfigs(rooms[roomId].players), gameId, seed);
    }
  }

  /** An accepted call files a consistent game back under its id. */
  lemma CallKeepsStoreOk(store: Store, rooms: Registry, gameId: string, playerId: int,
                         numbers: seq<int>, seed: nat)
    requires StoreOk(store)
    ensures var r := Call(store, rooms, gameId, playerId, numbers, seed);
      r.Ok? ==> StoreOk(r.value.1)
  {
    var r := Call(store, rooms, gameId, playerId, numbers, seed);
    if r.Ok? {
      var g := store[gameId];
      CallKeepsConsistent(g, playerId, numbers, seed);
      FileKeepsStoreOk(store, gameId, r.value.1[gameId]);
    }
  }

  /** An accepted pass or reverse files a consistent game back under its id. */
  lemma ActionsKeepStoreOk(store: Store, gameId: string, playerId: int)
    requires StoreOk(store)
    ensures var r := Pass(store, gameId, playerId); r.Ok? ==> StoreOk(r.value.1)
    ensures var r := Reverse(store, gameId, playerId); r.Ok? ==> StoreOk(r.value.2)
  {
    var p := Pass(store, gameId, playerId);
    if p.Ok? {
      PassKeepsConsistent(store[gameId], playerId);
      FileKeepsStoreOk(store, gameId, p.value.1[gameId]);
    }
    var v := Reverse(store, gameId, playerId);
    if v.Ok? {
      ReverseKeepsConsistent(store[gameId], playerId);
      FileKeepsStoreOk(store, gameId, v.value.2[gameId]);
    }
  }

  /** The AI's move files a consistent game back under its id. */
  lemma AiKeepsStoreOk(store: Store, rooms: Registry, gameId: string, coin: bool, pick: nat, seed: nat)
    requires StoreOk(store)
    ensures var r := AiAction(store, rooms, gameId, coin, pick, seed);
      r.Ok? ==> StoreOk(r.value.1)
  {
    var r := AiAction(store, rooms, gameId, coin, pick, seed);
    if r.Ok? {
      var g := store[gameId];
      AiMoveIsConsistent(g, coin, pick, seed);
      FileKeepsStoreOk(store, gameId, r.value.0.game);
    }
  }

  /** An accepted AI move leaves a consistent game with the same id. */
  lemma AiMoveIsConsistent(g: Game, coin: bool, pick: nat, seed: nat)
    requires Consistent(g)
    requires Ai.AiTurn(g, coin, pick, seed).Ok?
    ensures Consistent(Ai.AiTurn(g, coin, pick, seed).value.game)
    ensures Ai.AiTurn(g, coin, pick, seed).value.game.gameId == g.gameId
  {
    match Ai.AiTurn(g, coin, pick, seed).value
    case Called(reply, g2) =>
      var ns :| Ai.Decision(g, coin, pick) == Ok(Some(Ai.CallAction(ns)))
                && CallNumbers(g, Current(g).id, ns, seed) == Ok((reply, g2));
      CallKeepsConsistent(g, Current(g).id, ns, seed);
    case Passed(_, _) =>
      PassKeepsConsistent(g, Current(g).id);
  }

  /** Every filed game has a status, which names the game. */
  lemma StatusOfFiledGame(store: Store, gameId: string)
    requires StoreOk(store) && gameId in store
    ensures StatusOf(store, gameId).Ok?
    ensures StatusOf(store, gameId).value.gameId == gameId
  {
    StatusOfConsistent(store[gameId]);
  }

  /** A call that ends a game puts the room that hosted it back to waiting
      and forgets the game, so the room can be joined again; a call that
      does not end the game leaves every room as it was. */
  lemma GameOverReopensRoom(store: Store, rooms: Registry, gameId: string, playerId: int,
                            numbers: seq<int>, seed: nat, roomId: int)
    requires StoreOk(store)
    requires roomId in rooms && rooms[roomId].gameId == Some(gameId)
    ensures var r := Call(store, rooms, gameId, playerId, numbers, seed);
      r.Ok? ==>
        && (EndsGame(r.value.0) ==>
              && roomId in r.value.2
              && r.value.2[roomId].status == Waiting && r.value.2[roomId].gameId.None?
              && r.value.2[roomId].players == rooms[roomId].players)
        && (!EndsGame(r.value.0) ==> r.value.2 == rooms)
  {
  }

  /** The same holds when the AI's call ends the game. */
  lemma AiGameOverReopensRoom(store: Store, rooms: Registry, gameId: string, coin: bool, pick: nat,
                              seed: nat, roomId: int)
    requires StoreOk(store)
    requires roomId in rooms && rooms[roomId].gameId == Some(gameId)
    ensures var r := AiAction(store, rooms, gameId, coin, pick, seed);
      r.Ok? && r.value.0.Called? && EndsGame(r.value.0.reply) ==>
        && roomId in r.value.2
        && r.value.2[roomId].status == Waiting && r.value.2[roomId].gameId.None?
  {
  }

  /** A room game runs from start to finish: starting it files a consistent
      game and marks the room playing under that game's id, and once a call
      ends that game the room is waiting again with no game. */
  lemma RoomGameLifecycle(store: Store, rooms: Registry, roomId: int, gameId: string, seed: nat,
                          playerId: int, numbers: seq<int>, seed2: nat)
    requires StoreOk(store)
    requires StartRoomAt(store, rooms, roomId, gameId, seed).Ok?
    ensures var (store1, rooms1) := StartRoomAt(store, rooms, roomId, gameId, seed).value;
      && StoreOk(store1) && gameId in store1
      && rooms1[roomId].status == Playing && rooms1[roomId].gameId == Some(gameId)
      && var r := Call(store1, rooms1, gameId, playerId, numbers, seed2);
         r.Ok? && EndsGame(r.value.0) ==>
           r.value.2[roomId].status == Waiting && r.value.2[roomId].gameId.None?
  {
    var (store1, rooms1) := StartRoomAt(store, rooms, roomId, gameId, seed).value;
    StartsKeepStoreOk(store, rooms, [], roomId, gameId, seed);
    GameOverReopensRoom(store1, rooms1, gameId, playerId, numbers, seed2, roomId);
  }
}

=== FILE: setup.dfy ===
/** The game set-up form of the client (src/pages/GameStart.tsx): the player
    count stepper, the list of names it keeps beside the count, and the check
    that runs before a game is requested. */
module GameSetup {
  import opened Types
  import opened Seqs

  datatype Form = Form(count: int, names: seq<string>)

  /** The word "player" (玩家) the default names start with. */
  const PlayerWord: string := [0x73A9 as char, 0x5BB6 as char]

  /** The default name of the k-th player: the word, a space, the number. */
  function DefaultName(k: int): (n: string)
    ensures |n| > 2 && n[..2] == PlayerWord && n[2] == ' '
  {
    PlayerWord + " " + DecimalString(k)
  }

  /** The form as it first appears: two players with their default names. */
  function Init(): (f: Form)
    ensures f.count == 2 && |f.names| == 2
    ensures forall i :: 0 <= i < 2 ==> f.names[i] == DefaultName(i + 1)
  {
    Form(2, [DefaultName(1), DefaultName(2)])
  }

  function Clamp(x: int): (c: int)
    ensures 2 <= c <= 5
    ensures 2 <= x <= 5 ==> c == x
  {
    if x < 2 then 2 else if x > 5 then 5 else x
  }

  /** `updatePlayerCount`: the count moves by `delta` within [2, 5], and a
      positive step appends the default name for the new count while any
      other step drops the last name. The list is changed even when the
      count is already at its bound. */
  function UpdateCount(f: Form, delta: int): (f': Form)
    ensures f'.count == Clamp(f.count + delta)
    ensures delta > 0 ==> f'.names == f.names + [DefaultName(f'.count)]
    ensures delta <= 0 && |f.names| > 0 ==> f'.names == f.names[..|f.names| - 1]
    ensures delta <= 0 && |f.names| == 0 ==> f'.names == []
  {
    var c := Clamp(f.count + delta);
    if delta > 0 then Form(c, f.names + [DefaultName(c)])
    else if |f.names| > 0 then Form(c, f.names[..|f.names| - 1])
    else Form(c, f.names)
  }

  datatype Stepper = Minus | Plus

  /** A click on a stepper button: the minus button is disabled at two
      players and the plus button at five, and a disabled button does
      nothing. */
  function Click(f: Form, b: Stepper): (f': Form)
    ensures b == Minus && f.count <= 2 ==> f' == f
    ensures b == Plus && f.count >= 5 ==> f' == f
    ensures b == Minus && f.count > 2 ==> f' == UpdateCount(f, -1)
    ensures b == Plus && f.count < 5 ==> f' == UpdateCount(f, 1)
  {
    match b
    case Minus => if f.count <= 2 then f else UpdateCount(f, -1)
    case Plus => if f.count >= 5 then f else UpdateCount(f, 1)
  }

  /** One name per player, between two and five players. */
  predicate Synced(f: Form)
  {
    2 <= f.count <= 5 && |f.names| == f.count
  }

  /** Every name is its position's default. */
  predicate AllDefault(f: Form)
  {
    forall i :: 0 <= i < |f.names| ==> f.names[i] == DefaultName(i + 1)
  }

  /** Thanks to the disabled buttons, every click keeps one name per player,
      and a form only ever touched through the stepper holds the default
      names. */
  lemma ClickKeepsSynced(f: Form, b: Stepper)
    requires Synced(f)
    ensures Synced(Click(f, b))
    ensures AllDefault(f) ==> AllDefault(Click(f, b))
  {
  }

  /** The disabled state is what keeps count and names together: the update
      itself, applied at the lower bound, leaves two players with one name. */
  lemma UngatedMinusDesyncs()
    ensures var f := UpdateCount(Init(), -1);
      f.count == 2 && |f.names| == 1 && !Synced(f)
  {
  }

  /** `updatePlayerName`: the name at `index` is replaced. The form only calls
      it for an index of a listed name. */
  function UpdatePlayerName(f: Form, index: int, name: string): (f': Form)
    requires 0 <= index < |f.names|
    ensures f'.count == f.count && |f'.names| == |f.names| && f'.names[index] == name
    ensures forall i :: 0 <= i < |f.names| && i != index ==> f'.names[i] == f.names[i]
  {
    f.(names := f.names[index := name])
  }

  /** The characters JavaScript's `String.prototype.trim` removes: the
      ECMAScript WhiteSpace and LineTerminator code points. */
  predicate IsJsSpace(c: char)
  {
    || c == '\t' || c == '\n' || c == 0x0B as char || c == 0x0C as char || c == '\r'
    || c == ' ' || c == 0xA0 as char || c == 0x1680 as char
    || (0x2000 as char <= c <= 0x200A as char)
    || c == 0x2028 as char || c == 0x2029 as char || c == 0x202F as char
    || c == 0x205F as char || c == 0x3000 as char || c == 0xFEFF as char
  }

  predicate Blank(s: string)
  {
    forall k :: 0 <= k < |s| ==> IsJsSpace(s[k])
  }

  /** The first index at or after `i` that holds no white space. */
  function SkipStart(s: string, i: nat): (k: nat)
    requires i <= |s|
    ensures i <= k <= |s|
    ensures forall m :: i <= m < k ==> IsJsSpace(s[m])
    ensures k < |s| ==> !IsJsSpace(s[k])
    decreases |s| - i
  {
    if i == |s| || !IsJsSpace(s[i]) then i else SkipStart(s, i + 1)
  }

  /** The end of `s[lo..j]` once trailing white space is dropped. */
  function SkipEnd(s: string, lo: nat, j: nat): (k: nat)
    requires lo <= j <= |s|
    ensures lo <= k <= j
    ensures forall m :: k <= m < j ==> IsJsSpace(s[m])
    ensures k > lo ==> !IsJsSpace(s[k - 1])
    decreases j - lo
  {
    if j == lo || !IsJsSpace(s[j - 1]) then j else SkipEnd(s, lo, j - 1)
  }

  /** `t` sits at index `i` of `s` with nothing but white space around it. */
  predicate Strips(s: string, i: int, t: string)
  {
    && 0 <= i && i + |t| <= |s| && s[i..i + |t|] == t
    && (forall m :: 0 <= m < i ==> IsJsSpace(s[m]))
    && (forall m :: i + |t| <= m < |s| ==> IsJsSpace(s[m]))
  }

  /** `trim`: white space dropped from both ends; the result is empty exactly
      for a blank string. */
  function Trim(s: string): (t: string)
    ensures |t| <= |s|
    ensures |t| > 0 ==> !IsJsSpace(t[0]) && !IsJsSpace(t[|t| - 1])
    ensures t == [] <==> Blank(s)
    ensures exists i :: Strips(s, i, t)
  {
    var i := SkipStart(s, 0);
    var j := SkipEnd(s, i, |s|);
    assert i < |s| ==> i < j;
    assert Strips(s, i, s[i..j]);
    s[i..j]
  }

  datatype Notice = BlankName

  /** The guard of `startGame`: if some name trims to the empty string nothing
      is sent; otherwise the names are the request. */
  function StartRequest(f: Form): (r: Result<seq<string>, Notice>)
    ensures r.Err? <==> exists k :: 0 <= k < |f.names| && Blank(f.names[k])
    ensures r.Ok? ==> r.value == f.names
  {
    if exists k :: 0 <= k < |f.names| && Trim(f.names[k]) == [] then Err(BlankName)
    else Ok(f.names)
  }

  /** Default names are never blank, so a form only ever touched through the
      stepper can always be submitted. */
  lemma DefaultsPassTheGuard(f: Form)
    requires AllDefault(f)
    ensures StartRequest(f).Ok?
  {
    forall k | 0 <= k < |f.names|
      ensures !Blank(f.names[k])
    {
      assert f.names[k][0] == PlayerWord[0];
    }
  }
}

=== FILE: socket.dfy ===
/** The client's shared WebSocket connection (src/services/WebSocketService.ts).
    A socket is identified by a serial number and remembers the channel
    (`lobby`, `room_<id>`) it was opened for; closing a socket and firing a
    timer are events the caller feeds in, since the browser delivers them
    asynchronously. Message handlers are identified by integers standing for
    the function references the service compares. */
module Socket {
  import opened Types
  import opened Seqs

  datatype Sock = Sock(id: nat, channel: string)

  datatype Service = Service(
    ws: Option<Sock>,
    handlers: seq<int>,
    shouldReconnect: bool,
    nextId: nat)

  /** A pending `setTimeout`: it reconnects in place of the socket `target`. */
  datatype Timer = Timer(target: Sock, delay: nat)

  const ReconnectInterval: nat := 3000

  /** The service as constructed: no socket, no handlers, reconnection on. */
  function Fresh(): (s: Service)
    ensures s.ws.None? && s.handlers == [] && s.shouldReconnect
  {
    Service(None, [], true, 0)
  }

  /** Every socket the service holds was opened by it. */
  predicate Valid(s: Service)
  {
    s.ws.Some? ==> s.ws.value.id < s.nextId
  }

  /** `connect`: the socket held, if any, is closed (second component); the
      flag is raised and a new socket, distinct from every earlier one, is
      opened on the channel. Handlers are kept. */
  function Connect(s: Service, channel: string): (r: (Service, Option<Sock>))
    requires Valid(s)
    ensures Valid(r.0)
    ensures r.0.ws.Some? && r.0.ws.value.channel == channel
    ensures s.ws.Some? ==> r.0.ws.value.id != s.ws.value.id
    ensures r.0.shouldReconnect && r.0.handlers == s.handlers
    ensures r.1 == s.ws
  {
    (Service(Some(Sock(s.nextId, channel)), s.handlers, true, s.nextId + 1), s.ws)
  }

  /** `disconnect`: reconnection is switched off and the socket held, if any,
      is closed and dropped. */
  function Disconnect(s: Service): (r: (Service, Option<Sock>))
    requires Valid(s)
    ensures Valid(r.0)
    ensures r.0.ws.None? && !r.0.shouldReconnect && r.0.handlers == s.handlers
    ensures r.1 == s.ws
  {
    (s.(ws := None, shouldReconnect := false), s.ws)
  }

  /** `subscribe`: the handler is appended. */
  function Subscribe(s: Service, h: int): (s': Service)
    ensures s'.handlers == s.handlers + [h]
    ensures s'.ws == s.ws && s'.shouldReconnect == s.shouldReconnect
  {
    s.(handlers := s.handlers + [h])
  }

  /** The function `subscribe` returns: every registration of the handler is
      filtered out, the others keep their order. */
  function Unsubscribe(s: Service, h: int): (s': Service)
    ensures h !in s'.handlers
    ensures forall k :: k in s'.handlers <==> k in s.handlers && k != h
    ensures forall k :: k != h ==> multiset(s'.handlers)[k] == multiset(s.handlers)[k]
    ensures s'.ws == s.ws && s'.shouldReconnect == s.shouldReconnect
  {
    s.(handlers := RemoveAll(s.handlers, h))
  }

  /** The handlers left behind keep their order: unsubscribing from a list
      made of two parts leaves what each part keeps, one after the other. */
  lemma UnsubscribeKeepsOrder(s: Service, h: int, a: seq<int>, b: seq<int>)
    requires s.handlers == a + b
    ensures Unsubscribe(s, h).handlers
      == Unsubscribe(s.(handlers := a), h).handlers + Unsubscribe(s.(handlers := b), h).handlers
  {
    RemoveAllConcat(a, b, h);
  }

  /** Unsubscribing a handler registered once undoes its subscription. */
  lemma SubscribeThenUnsubscribe(s: Service, h: int)
    requires h !in s.handlers
    ensures Unsubscribe(Subscribe(s, h), h) == s
  {
    var hs := s.handlers + [h];
    RemoveSingle(hs, |s.handlers|);
    assert hs[..|s.handlers|] == s.handlers;
  }

  /** `this.handlers.forEach(handler => handler(data))` inside a `try`: the
      handlers are called in order, and the first one that throws ends the
      loop. The result lists the handlers called. */
  function Deliveries(handlers: seq<int>, throwing: set<int>): (r: seq<int>)
    ensures |r| <= |handlers| && r == handlers[..|r|]
    ensures forall i :: 0 <= i < |r| - 1 ==> r[i] !in throwing
    ensures |r| < |handlers| ==> 0 < |r| && r[|r| - 1] in throwing
    ensures (forall i :: 0 <= i < |handlers| ==> handlers[i] !in throwing) ==> r == handlers
    decreases |handlers|
  {
    if |handlers| == 0 then []
    else if handlers[0] in throwing then [handlers[0]]
    else [handlers[0]] + Deliveries(handlers[1..], throwing)
  }

  /** `onmessage`: a payload that does not parse reaches no handler; one that
      does is delivered as above. */
  function OnMessage(s: Service, parsed: Option<string>, throwing: set<int>): (r: seq<int>)
    ensures parsed.None? ==> r == []
    ensures parsed.Some? && (forall i :: 0 <= i < |s.handlers| ==> s.handlers[i] !in throwing) ==> r == s.handlers
    ensures parsed.Some? && |r| < |s.handlers| ==> 0 < |r| && r[|r| - 1] in throwing
    ensures |r| <= |s.handlers| && r == s.handlers[..|r|]
  {
    if parsed.None? then [] else Deliveries(s.handlers, throwing)
  }

  /** `onclose` as written: whichever socket closes, if the flag is raised a
      reconnection to that socket's channel is scheduled. The flag is the
      service's, shared by all the sockets it ever opened. */
  function OnClose(s: Service, closed: Sock): (t: Option<Timer>)
    ensures t.Some? <==> s.shouldReconnect
    ensures t.Some? ==> t.value.target.channel == closed.channel && t.value.delay == ReconnectInterval
  {
    if s.shouldReconnect then Some(Timer(closed, ReconnectInterval)) else None
  }

  /** The timer callback as written: `connect` on the closed socket's channel. */
  function Fire(s: Service, t: Timer): (r: (Service, Option<Sock>))
    requires Valid(s)
    ensures Valid(r.0) && r.0.ws.Some? && r.0.ws.value.channel == t.target.channel
    ensures r.1 == s.ws
  {
    Connect(s, t.target.channel)
  }

  /** The defect. Leaving the lobby for a room runs `disconnect` and then
      `connect("room_7")`; the lobby socket's close event arrives after that,
      finds the flag raised again and schedules a reconnection to the lobby.
      When it fires, the room socket is closed and the service is back on the
      lobby channel, which the page never asked for; the room socket's own
      close then schedules the room again, and so on. */
  lemma StaleCloseRevivesOldChannel()
    ensures var lobbyOn := Connect(Fresh(), "lobby").0;
      var lobby := lobbyOn.ws.value;
      var off := Disconnect(lobbyOn).0;
      var roomOn := Connect(off, "room_7").0;
      var room := roomOn.ws.value;
      var t := OnClose(roomOn, lobby);
      && Disconnect(lobbyOn).1 == Some(lobby)
      && t == Some(Timer(lobby, ReconnectInterval))
      && Fire(roomOn, t.value).0.ws.value.channel == "lobby"
      && Fire(roomOn, t.value).1 == Some(room)
      && OnClose(Fire(roomOn, t.value).0, room) == Some(Timer(room, ReconnectInterval))
  {
  }

  /** The back-and-forth never settles: whenever a socket other than the
      live one closes while reconnection is on, the service ends up on the
      stale channel, and the close of the socket it replaced sets up the same
      situation with the two channels swapped. */
  lemma StaleCloseBounces(s: Service, stale: Sock)
    requires Valid(s) && s.shouldReconnect && s.ws.Some? && s.ws.value != stale
    ensures OnClose(s, stale) == Some(Timer(stale, ReconnectInterval))
    ensures var r := Fire(s, OnClose(s, stale).value);
      && r.0.ws.value.channel == stale.channel
      && r.1 == s.ws && r.0.shouldReconnect
      && r.0.ws.value != s.ws.value
      && OnClose(r.0, s.ws.value) == Some(Timer(s.ws.value, ReconnectInterval))
  {
  }

  /** The corrected `onclose`: only the close of the socket the service still
      holds schedules a reconnection. */
  function OnCloseGuarded(s: Service, closed: Sock): (t: Option<Timer>)
    ensures t.Some? <==> s.shouldReconnect && s.ws == Some(closed)
    ensures t.Some? ==> t.value.target == s.ws.value && t.value.delay == ReconnectInterval
  {
    if s.shouldReconnect && s.ws == Some(closed) then Some(Timer(closed, ReconnectInterval)) else None
  }

  /** The corrected timer callback: it reconnects only if the service still
      holds the socket the timer target and reconnection is still on, so a
      `disconnect` or a `connect` in the meantime cancels it. */
  function FireGuarded(s: Service, t: Timer): (r: (Service, Option<Sock>))
    requires Valid(s)
    ensures Valid(r.0)
    ensures r.1.Some? <==> s.shouldReconnect && s.ws == Some(t.target)
    ensures r.1.None? ==> r.0 == s
    ensures r.1.Some? ==> r.0.ws.Some? && r.0.ws.value.channel == t.target.channel
  {
    if s.shouldReconnect && s.ws == Some(t.target) then Connect(s, t.target.channel) else (s, None)
  }

  /** For the live socket the corrected handler does what the original does. */
  lemma GuardedAgreesOnLiveSocket(s: Service, closed: Sock)
    requires Valid(s) && s.ws == Some(closed)
    ensures OnCloseGuarded(s, closed) == OnClose(s, closed)
    ensures OnClose(s, closed).Some? ==>
      FireGuarded(s, OnClose(s, closed).value) == Fire(s, OnClose(s, closed).value)
  {
  }

  /** With the corrections, closes and timers never move the service to
      another channel and never revive a disconnected service: only the
      page's own `connect` does that. */
  lemma GuardedKeepsChannel(s: Service, closed: Sock, t: Timer)
    requires Valid(s)
    ensures OnCloseGuarded(s, closed).Some? ==> OnCloseGuarded(s, closed).value.target.channel == s.ws.value.channel
    ensures var r := FireGuarded(s, t).0;
      && (s.ws.None? ==> r.ws.None?)
      && (s.ws.Some? ==> r.ws.Some? && r.ws.value.channel == s.ws.value.channel)
  {
  }

  /** In the scenario of the defect, the corrected handler schedules nothing
      and the service stays on the room channel. */
  lemma GuardedStaleCloseIsIgnored()
    ensures var lobbyOn := Connect(Fresh(), "lobby").0;
      var lobby := lobbyOn.ws.value;
      var roomOn := Connect(Disconnect(lobbyOn).0, "room_7").0;
      && OnCloseGuarded(roomOn, lobby).None?
      && FireGuarded(roomOn, Timer(lobby, ReconnectInterval)).0 == roomOn
  {
  }
}

=== FILE: types.dfy ===
/** Shared records of the game: the player record that the server sends and
    the client renders, the closed number interval, and the failures the
    server's endpoints and guards can raise. */
module Types {

  datatype Option<+T> = None | Some(value: T)

  /** Either a value or the error an endpoint raised (an HTTP error status). */
  datatype Result<+T, +E> = Ok(value: T) | Err(error: E)

  /** The closed interval [lo, hi] of numbers still in play. */
  datatype Range = Range(lo: int, hi: int)
  {
    predicate Contains(x: int) { lo <= x <= hi }
  }

  /** A participant, as the server stores it and the client receives it. */
  datatype Player = Player(
    id: int,
    name: string,
    isAi: bool,
    isAlive: bool,
    passAvailable: bool,
    reverseAvailable: bool)

  /** Every way an endpoint of the game server can refuse a request. */
  datatype ApiError =
    | NotYourTurn          // 400 "not your turn"
    | BadCallLength        // 400 "must call 1-3 numbers"
    | NotConsecutive       // 400 "numbers must be consecutive"
    | OutOfRange           // 400 "numbers must lie in the range"
    | AlreadyCalled        // 400 "a number was already called"
    | PassUsed             // 400 "pass already used"
    | ReverseUsed          // 400 "reverse already used"
    | BadPlayerCount       // 400 "2-5 players" (direct game start)
    | BadMaxPlayers        // 400 "2-10 players" (room creation)
    | NotEnoughPlayers     // 400 room start with fewer than 2 players
    | RoomFull             // 400 "room is full"
    | GameInProgress       // 400 "game in progress"
    | WrongPassword        // 403
    | RoomNotFound         // 404
    | GameNotFound         // 404 "game does not exist"
    | NotAiTurn            // 400 "current player is not an AI"
    | AiMissing            // 500 "AI does not exist"
    | NoAiAction           // the AI returned no action; the endpoint then fails on it
    | DivisionByZero       // the AI's danger ratio over an empty range
    | NoAlivePlayer        // status of a game with nobody alive (index error)
    | UnboundNumbers       // reading the request's numbers before they are bound
}
